=== FILE: README.md ===
# brev-ly URL shortener: a Dafny model of its core

brev-ly stores short links. Each link is a row of the `link_shorteners` table:
- a text id;
- a unique short `name`;
- the target `url`;
- a creation time;
- an access counter.

This project models four parts of the server:

- **The table** (`Schema`, `schema.dfy`). The table is an immutable map from id to row. Its subset type carries two constraints: each row sits under its own primary key, and no two rows share a name.
- **The repository** (`UrlRepository`, `repository.dfy`). These are the queries `getUrl`, `storeUrl`, `checkUrlExists`, `deleteUrl`, `updateUrl`, `getUrlByShortUrl` and `urlExport`. Each call is atomic. Each write returns the table after the call, together with the value returned or the error thrown (`Url not found`, `Name url already exists`); the reads (`checkUrlExists`, `urlExport`, `getUrl`) take the table and return only their value.
  - `getUrl` is a method. It selects the rows newest first, then applies `limit`/`offset`. Rows with equal creation times have no fixed order, so its contract is stated against a ghost listing: any order the database may return.
  - `RepositoryProperties` (`repository_properties.dfy`) relates several calls to one another: round trips, conflicts, idempotence, the record lifecycle and how pages tile a listing.
- **The request validation and controllers.**
  - `Validation` holds the rules the store and update schemas share:
    - name: 1 to 50 characters from `[A-Za-z0-9_-]`;
    - url: the library's url check, non-empty, and the pattern `^(https?://)[^\s$.?#].[^\s]*$` with case folding;
    - how a failed parse is rendered: `path: message`, joined by `, `, in field order.
  - `StoreController`, `UpdateController` and `GetController` map each request and each outcome to the reply the HTTP layer sends: a status, a message and an error text.
- **The object key of an upload** (`StorageKey`). The key has the form `folder/uuid-<sanitised basename><extension>`, with Node's POSIX `basename` and `extname`.

The search of the listing and of the repository's export is case-sensitive. The CSV export job filters with `ilike` (server/src/app/Export/ExportUrl.ts:18). But `getUrl` and `urlExport` filter with `like` (server/src/app/Repository/UrlRepository.ts:77 and 183), which PostgreSQL matches case-sensitively, and the model follows those two.

The url check of the validation library (`z.string().url()`) is a parameter `isUrl`. The id a new row receives (a uuidv7), the insertion clock and the upload's random uuid are parameters too.

## Model

| member | source | states |
|---|---|---|
| Schema.IdByName | server/src/app/Repository/UrlRepository.ts:161-164 | a lookup by name finds a row exactly when some row carries that name, and because names are unique the row it finds is the only one |
| UrlRepository.CheckUrlExists | server/src/app/Repository/UrlRepository.ts:114-121 | true exactly when some row has that primary key |
| UrlRepository.RepoError.Message | server/src/app/Repository/UrlRepository.ts:126 | each repository error carries a non-empty message, and "Url not found" belongs to the missing-row error only; the other one is "Name url already exists" (line 97) |
| UrlRepository.StoreUrl | server/src/app/Repository/UrlRepository.ts:90-112 | fails with "Name url already exists" exactly when the name is taken, leaving the table unchanged; otherwise adds one row with the given name and url, the current time, count 0 and the fresh id, and keeps every other row |
| UrlRepository.UpdateUrl | server/src/app/Repository/UrlRepository.ts:135-158 | succeeds exactly when the id exists and no other row has the name; a missing id fails with "Url not found" before any name check; for an existing id, "Name url already exists" is raised exactly when another row has the name; a failure changes nothing; a success rewrites only that row's name and url, keeping its id, creation time and count |
| UrlRepository.DeleteUrl | server/src/app/Repository/UrlRepository.ts:123-133 | fails with "Url not found" exactly when the id is absent, leaving the table unchanged; otherwise returns true and removes exactly that row |
| UrlRepository.GetUrlByShortUrl | server/src/app/Repository/UrlRepository.ts:160-178 | fails with "Url not found" exactly when no row has the name; otherwise reports that row's url and count plus one, and the stored count of that row, and only that row, grows by one |
| UrlRepository.UrlExport | server/src/app/Repository/UrlRepository.ts:180-190 | the export is a sub-table of the table; a row is left out only when the query is not blank and the row's name does not contain it |
| UrlRepository.MatchingIds | server/src/app/Repository/UrlRepository.ts:77 | the rows the name filter selects are rows of the table |
| UrlRepository.IsListing | server/src/app/Repository/UrlRepository.ts:76-80 | a listing holds only rows of the table: each matching row once, newest first |
| UrlRepository.ListRequest.Search | server/src/app/Repository/UrlRepository.ts:74 | a missing search is the empty pattern; a given one is used as is |
| UrlRepository.ListRequest.Page | server/src/app/Repository/UrlRepository.ts:72 | a missing page is page 1; a given one is used as is |
| UrlRepository.ListRequest.PageSize | server/src/app/Repository/UrlRepository.ts:73 | a missing page size is 10; a given one is used as is |
| UrlRepository.ListRequest.Offset | server/src/app/Repository/UrlRepository.ts:79 | the first page starts at offset 0, and from page 1 on the offset is non-negative and one page size short of page*pageSize |
| UrlRepository.Window | server/src/app/Repository/UrlRepository.ts:78-79 | `limit`/`offset`: the page holds min(limit, what remains after the offset) elements, element i being element offset+i of the input |
| UrlRepository.LatestExists | server/src/app/Repository/UrlRepository.ts:80 | every non-empty set of rows has a newest row, so ordering by creation time descending always has a next row to pick |
| UrlRepository.AppendNewest | server/src/app/Repository/UrlRepository.ts:80 | appending a row that is not yet listed and no newer than any listed row keeps the listing newest first and free of repeats |
| UrlRepository.OrderNewestFirst | server/src/app/Repository/UrlRepository.ts:80 | the ordered ids are exactly the given rows, each once, newest first |
| UrlRepository.GetUrl | server/src/app/Repository/UrlRepository.ts:70-88 | the page is the window at offset (page-1)*pageSize and size pageSize of a listing that holds every row whose name contains the search, each exactly once, newest first; total is the page's length and at most pageSize; page and pageSize default to 1 and 10 and are echoed back |
| RepositoryProperties.StoreTwiceConflicts | server/src/app/Repository/UrlRepository.ts:91-98 | storing a name a second time fails with "Name url already exists" and changes nothing, whatever the url |
| RepositoryProperties.StoreThenDeleteRestores | server/src/app/Repository/UrlRepository.ts:123-133 | deleting the row just stored returns true and gives back exactly the table before the store |
| RepositoryProperties.StoreThenResolve | server/src/app/Repository/UrlRepository.ts:170-177 | a freshly stored name resolves to its url with count 1 |
| RepositoryProperties.ResolveTwice | server/src/app/Repository/UrlRepository.ts:170-177 | two resolutions report N+1 then N+2, and the stored count ends at N+2 |
| RepositoryProperties.UpdateKeepingOwnName | server/src/app/Repository/UrlRepository.ts:141-148 | an existing record may keep its own name while its url changes |
| RepositoryProperties.UpdateTakingOthersName | server/src/app/Repository/UrlRepository.ts:141-148 | taking another record's name fails with "Name url already exists" and changes nothing |
| RepositoryProperties.UpdateIdempotent | server/src/app/Repository/UrlRepository.ts:150-153 | repeating a successful update succeeds and changes nothing further |
| RepositoryProperties.DeleteForgetsRow | server/src/app/Repository/UrlRepository.ts:129-130 | after a delete the id appears in no listing and the name no longer resolves |
| RepositoryProperties.ExportBlankIsEverything | server/src/app/Repository/UrlRepository.ts:182 | a blank or whitespace-only export query exports the whole table |
| RepositoryProperties.ExportMatchesSearch | server/src/app/Repository/UrlRepository.ts:182-183 | a non-blank export query exports exactly the rows the listing filter selects |
| RepositoryProperties.LifecycleInvariants | server/src/app/Repository/UrlRepository.ts:150-172 | across any store, update, delete or resolution, a surviving row keeps its id and creation time, and its count never drops and grows by at most one, only through a resolution |
| RepositoryProperties.OnlyStoreAddsRows | server/src/app/Repository/UrlRepository.ts:100-105 | only a store adds a row; updates, deletes and resolutions never do |
| RepositoryProperties.PagesTile | server/src/app/Repository/UrlRepository.ts:78-79 | the first n pages of size s, placed one after another, are the first n*s rows of the listing: no row is skipped or shown twice |
| RepositoryProperties.NextPage | server/src/app/Repository/UrlRepository.ts:78-79 | the rows before an offset followed by the page at that offset are the rows before the offset plus the page size |
| RepositoryProperties.PagesCoverListing | server/src/app/Repository/UrlRepository.ts:78-79 | enough pages together show the whole listing |
| RepositoryProperties.FirstsSize | server/src/app/Repository/UrlRepository.ts:80 | the first n positions of a listing hold n different rows, since a listing never repeats a row |
| RepositoryProperties.NewerPrefixInside | server/src/app/Repository/UrlRepository.ts:80 | if position i of one newest-first listing is strictly newer than position i of another, the first i+1 rows of the first all sit among the first i rows of the second |
| RepositoryProperties.NotNewerAt | server/src/app/Repository/UrlRepository.ts:80 | the row at position i of one valid listing is never newer than the row at position i of another |
| RepositoryProperties.ListingsAgree | server/src/app/Repository/UrlRepository.ts:76-80 | any two orders the database may return for the same table and search have the same length and the same creation time at every position, so they differ only in how rows with equal times are arranged |
| Chars.ContainsIffOccurs | server/src/app/Repository/UrlRepository.ts:77 | the `%search%` match holds exactly when the search occurs at some position of the name |
| Chars.ContainsEmpty | server/src/app/Repository/UrlRepository.ts:74-77 | the default empty search matches every name |
| Chars.ContainsSuffix | server/src/app/Repository/UrlRepository.ts:77 | a name contains each of its suffixes |
| Validation.NameMessages | server/src/app/Http/Controller/StoreUrlController.ts:15-18 | no message exactly when the name has 1 to 50 characters, all from `[A-Za-z0-9_-]`; an empty name gets both the required and the character message; an over-long name of allowed characters gets only the length message; a name of 1 to 50 characters with a forbidden one gets only the character message; an over-long name with a forbidden character gets the length message, then the character message |
| Validation.ValidName | server/src/app/Http/Controller/StoreUrlController.ts:15-18 | a name is valid exactly when the regex accepts it and it has at most 50 characters |
| Validation.NameRegexMatches | server/src/app/Http/Controller/StoreUrlController.ts:18 | an accepted name is non-empty and every character is in `[A-Za-z0-9_-]`; a refused one is empty or holds a character outside the class |
| Validation.NameIssues | server/src/app/Http/Controller/StoreUrlController.ts:15-18 | the name field passes exactly when it is a string that is a valid name; every issue is on path `name` |
| Validation.NameLengthBoundary | server/src/app/Http/Controller/StoreUrlController.ts:17 | 50 allowed characters pass; 51 fail on length alone; 0 fail with two messages |
| Validation.SchemeLength | server/src/app/Http/Controller/StoreUrlController.ts:11 | the scheme part of the pattern is `http://` or `https://` in any letter case, and nothing else: no scheme is found exactly when the url opens with neither |
| Validation.UrlPatternMatches | server/src/app/Http/Controller/StoreUrlController.ts:11 | the pattern accepts only urls opening with `http://` or `https://` in any letter case |
| Validation.UrlPatternShape | server/src/app/Http/Controller/StoreUrlController.ts:11 | a url the pattern accepts starts with http:// or https:// and has at least two characters after the scheme |
| Validation.MatchUrlPattern | server/src/app/Http/Controller/StoreUrlController.ts:11 | the left-to-right scan accepts exactly the urls the declarative reading of the pattern accepts |
| Validation.UrlMessages | server/src/app/Http/Controller/StoreUrlController.ts:6-14 | no message exactly when the library accepts the url and the pattern matches; an empty url reports "URL is required" before the pattern message; a non-empty refused url gets only "Invalid URL format", at most twice, and exactly once when the library accepts it but the pattern does not |
| Validation.UrlIssues | server/src/app/Http/Controller/StoreUrlController.ts:6-14 | the url field passes exactly when it is a string that both checks accept; every issue is on path `url` |
| Validation.PathRank | server/src/app/Http/Controller/StoreUrlController.ts:5-19 | the position of a field among the schema's fields, in declaration order |
| Validation.OneFieldInOrder | server/src/app/Http/Controller/StoreUrlController.ts:5-19 | the issues of a single field are in field order |
| Validation.InFieldOrderConcat | server/src/app/Http/Controller/StoreUrlController.ts:5-19 | the issues of earlier fields followed by those of later fields are in field order |
| Validation.OnPath | server/src/app/Http/Controller/StoreUrlController.ts:48 | selecting the issues of one field keeps exactly the issues on that path, in order |
| Validation.OnPathConcat | server/src/app/Http/Controller/StoreUrlController.ts:48 | selecting one field's issues distributes over concatenation |
| Validation.OnPathUniform | server/src/app/Http/Controller/StoreUrlController.ts:48 | issues all on a field are selected whole, and issues on other fields not at all |
| Validation.RenderIssuesConcat | server/src/app/Http/Controller/StoreUrlController.ts:48 | the report of two issue lists is their two reports joined by ", " |
| Validation.RenderIssues | server/src/app/Http/Controller/StoreUrlController.ts:48 | the report is empty exactly when there are no issues, and otherwise opens with the first issue rendered |
| Validation.RenderStartsWithFirst | server/src/app/Http/Controller/StoreUrlController.ts:48 | a report opens with `path: message` of its first issue |
| Validation.ReportOpensWith | server/src/app/Http/Controller/StoreUrlController.ts:48 | a report whose first issue has a given path and message opens with `path: message` |
| Validation.RenderSingle | server/src/app/Http/Controller/StoreUrlController.ts:48 | the report of one issue is `path: message` |
| StoreController.ParseStoreRequest | server/src/app/Http/Controller/StoreUrlController.ts:5-19 | the body passes exactly when its url and name both pass, and then yields them; otherwise the issue list is non-empty, url issues before name issues, and its issues on `url` and on `name` are exactly those each field's rules raise |
| StoreController.IssuesInOrder | server/src/app/Http/Controller/StoreUrlController.ts:5-19 | url issues followed by name issues are in the schema's field order |
| StoreController.IssuesByField | server/src/app/Http/Controller/StoreUrlController.ts:5-19 | url issues followed by name issues give back each field's own issues when selected by path |
| Replies.FailureReply | server/src/app/Http/Controller/StoreUrlController.ts:52-62 | a thrown Error is a 400 carrying the controller's failure message and the error's own message; anything else is a 500 "Erro interno do servidor" with the controller's fallback text (the update controller's lines 57-67 follow the same shape) |
| StoreController.Handle | server/src/app/Http/Controller/StoreUrlController.ts:35-64 | success exactly when the body passes and the name is free, with one new row of count 0 and "URL criada com sucesso", every existing row kept; a validation failure is a 400 "Dados inválidos fornecidos" with the rendered issues; a duplicate is a 400 with "Name url already exists"; every refusal leaves the table unchanged |
| StoreController.LongNameRefused | server/src/test/unit/controllers/StoreUrlController.test.ts:104-121 | a valid url with a 51-or-more-character name is refused with exactly "name: Name must be less than 50 characters" |
| StoreController.LongNameParse | server/src/test/unit/controllers/StoreUrlController.test.ts:104-121 | a valid url with an over-long name of allowed characters fails validation with the single length issue on `name` |
| StoreController.MissingUrlReported | server/src/test/unit/controllers/StoreUrlController.test.ts:184-201 | a body without url is a 400 whose error opens with "url: Required" |
| StoreController.MissingNameReported | server/src/test/unit/controllers/StoreUrlController.test.ts:203-220 | a body without name is a 400 whose error contains "name: Required" |
| UpdateController.MergeParams | server/src/app/Http/Controller/UpdateUrlController.ts:39-40 | the merged object takes the body's id when the body has one, the route id otherwise, and every other field from the body |
| UpdateController.IdIssues | server/src/app/Http/Controller/UpdateUrlController.ts:6 | the id passes exactly when it is a string, and every issue is on path `id` |
| UpdateController.ParseUpdateRequest | server/src/app/Http/Controller/UpdateUrlController.ts:5-20 | passes exactly when id is a string and url and name pass the store rules; issues come in the order id, url, name, and those on each field are exactly the ones its rules raise; a missing id makes the first issue "id: Required" |
| UpdateController.IssuesInOrder | server/src/app/Http/Controller/UpdateUrlController.ts:5-20 | id issues, then url issues, then name issues are in the schema's field order |
| UpdateController.IssuesByField | server/src/app/Http/Controller/UpdateUrlController.ts:5-20 | id, url and name issues in a row give back each field's own issues when selected by path |
| UpdateController.Handle | server/src/app/Http/Controller/UpdateUrlController.ts:37-69 | success exactly when validation passes, the id exists and no other row has the name, with the rewritten row (same id, creation time and count, new name and url) and "URL atualizada com sucesso", every other row kept; each refusal has its own reply and leaves the table unchanged |
| UpdateController.MissingIdIsReported | server/src/test/unit/controllers/UpdateUrlController.test.ts:117-136 | with neither a route id nor a body id, the reply is a 400 whose error opens with "id: Required" |
| UpdateController.MissingIdParse | server/src/app/Http/Controller/UpdateUrlController.ts:39-42 | with no id in the route or the body, validation fails and its first issue is "id: Required" |
| UpdateController.BodyIdWins | server/src/app/Http/Controller/UpdateUrlController.ts:40 | an id field in the body overrides the route id |
| GetController.ParseSearch | server/src/app/Http/Controller/GetUrlController.ts:6 | a missing search stays missing, a string passes, anything else is an issue |
| GetController.ParseNumber | server/src/app/Http/Controller/GetUrlController.ts:7-8 | a missing number becomes its default, a number passes, anything else is an issue on that field |
| GetController.ParseQuery | server/src/app/Http/Controller/GetUrlController.ts:5-9 | the query passes exactly when every field does; the result always carries a page and a page size, the given numbers when present and 1 and 10 when absent |
| GetController.Handle | server/src/app/Http/Controller/GetUrlController.ts:27-43 | a validation failure is rethrown as is; otherwise data and total are the repository's page and page and pageSize come from the validated query |
| StorageKey.ParseFolder | server/src/storage/upload-file-to-storage.ts:10 | only "images" and "downloads" are accepted, each naming its folder |
| StorageKey.StripTrailingSlashes | server/src/storage/upload-file-to-storage.ts:23 | the result is the path without its trailing slashes |
| StorageKey.AfterLastSlash | server/src/storage/upload-file-to-storage.ts:23 | the result is the longest slash-free suffix of the path |
| StorageKey.Basename | server/src/storage/upload-file-to-storage.ts:23 | the basename has no slash |
| StorageKey.LastDot | server/src/storage/upload-file-to-storage.ts:22 | the index of the last dot, or -1 exactly when there is none |
| StorageKey.ExtName | server/src/storage/upload-file-to-storage.ts:22 | the extension is empty or a dot followed by dot-free text, and is a suffix of the basename; it is empty exactly when the basename has no dot after its first character or is ".." |
| StorageKey.ComponentExt | server/src/storage/upload-file-to-storage.ts:22 | the extension of one path component is empty or a dot followed by dot-free text, and is a suffix of the component; it is empty exactly when no dot follows the first character or the component is ".." |
| StorageKey.Sanitize | server/src/storage/upload-file-to-storage.ts:24 | the result holds only `[A-Za-z0-9_-]` characters and is no longer than the input |
| StorageKey.UploadKey | server/src/storage/upload-file-to-storage.ts:20-26 | a key exists exactly when the folder is one of the two names, and it is that folder's object key |
| StorageKey.ObjectKey | server/src/storage/upload-file-to-storage.ts:23-26 | the key opens with the folder and a slash, and its length is the folder, two separators, the uuid, the sanitised basename and the extension |
| StorageKey.SanitizeConcat | server/src/storage/upload-file-to-storage.ts:24 | sanitising works piece by piece |
| StorageKey.SanitizeKeepsAllowed | server/src/storage/upload-file-to-storage.ts:24 | a string of allowed characters is unchanged |
| StorageKey.SanitizeIdempotent | server/src/storage/upload-file-to-storage.ts:24 | sanitising twice is sanitising once |
| StorageKey.SanitizeCounts | server/src/storage/upload-file-to-storage.ts:24 | each allowed character keeps its number of occurrences, and every other character disappears |
| StorageKey.SanitizeDrops | server/src/storage/upload-file-to-storage.ts:24 | a forbidden character after an allowed prefix is dropped |
| StorageKey.KeyStaysInFolder | server/src/storage/upload-file-to-storage.ts:26 | with a slash-free uuid, the key is the folder name, one slash, then a slash-free remainder, whatever the file name |
| StorageKey.LastDotAppend | server/src/storage/upload-file-to-storage.ts:22 | the last dot of a concatenation lies in the second part when it has one, and in the first part otherwise |
| StorageKey.KeyKeepsExtension | server/src/storage/upload-file-to-storage.ts:22-26 | with a uuid free of slashes and dots, the key has the same extension as the uploaded file name |
| StorageKey.KeyExtensionOfParts | server/src/storage/upload-file-to-storage.ts:22-26 | a key built from a folder, a plain uuid, an allowed stem and an extension has exactly that extension |
| StorageKey.ExtNameAfterSlash | server/src/storage/upload-file-to-storage.ts:22 | after a slash, a dot-free stem followed by an extension has exactly that extension |
| StorageKey.KeyBasename | server/src/storage/upload-file-to-storage.ts:23 | the basename of a slash-terminated prefix followed by a slash-free name is that name |
| StorageKey.AfterLastSlashOf | server/src/storage/upload-file-to-storage.ts:23 | the slash-free suffix after a slash-terminated prefix is what follows the prefix |
| StorageKey.BasenameOfPlainName | server/src/storage/upload-file-to-storage.ts:23 | a name without slashes is its own basename |
| StorageKey.ExtNameOfPlain | server/src/storage/upload-file-to-storage.ts:22 | a slash-free name that does not start with a dot, followed by an extension, has exactly that extension |
| StorageKey.SanitizeTimestamp | server/src/app/Export/ExportUrl.ts:53 | sanitising an ISO timestamp name drops its colons and dots and keeps the rest |
| StorageKey.TimestampNameParts | server/src/app/Export/ExportUrl.ts:53 | a timestamp `.csv` name has extension ".csv" and a sanitised basename that still ends in "csv" |
| StorageKey.TimestampFileKey | server/src/app/Export/ExportUrl.ts:52-53 | the export file's key is `downloads/uuid-<timestamp digits and letters>csv.csv`, with the ".csv" kept in the stem and appended again |

## Left out

- Database access, the ORM and SQL text are left out. Each query becomes a pure function over the table, and each call is one atomic step. Concurrent requests, and the window between a name check and the insert, are not modelled.
- `like '%search%'` is modelled as plain substring containment. The wildcards `%` and `_` inside a search string are not modelled, and neither is PostgreSQL's default escape character `\`. The listing and `urlExport` are case sensitive, as in the repository. The CSV export pipeline uses `ilike` (server/src/app/Export/ExportUrl.ts:18), and that pipeline is not part of this model.
- A NULL `count_access` is left out. Every insert writes 0 and the only update adds one, so the counter is a `nat`. The `?? 0` fallback on a NULL read never arises.
- Integer width and overflow of the counter and of the paging arithmetic are left out.
- UrlRepository.GetUrl requires a non-negative limit and offset. What the database driver does with a negative page size or offset is not modelled.
- GetController.Handle requires `PagingAccepted`: a validated query with page below 1 and a positive page size gives a negative offset, where the database error would be rethrown (server/src/app/Http/Controller/GetUrlController.ts:39-41). Such queries, and a negative page size, are excluded.
- Page and page size are integers in the model. Fractional numbers, NaN and infinities are left out.
- The `.url()` check of the validation library is the parameter `isUrl`. Its own url grammar is not modelled.
- Request bodies are modelled as maps from field names to values. A body that is not an object at all is left out. Unknown fields are ignored, as the schema strips them.
- String lengths count characters, standing in for JavaScript's UTF-16 code units. Characters outside the Basic Multilingual Plane would count as two there.
- The route-level query schema is left out (server/src/routes/url/url-route.ts:11-15). It only coerces query strings to numbers. Its `.default(1)` and `.default(20)` sit inside `.optional()`, which answers a missing value with `undefined` before the default runs, so they never apply. The controller's defaults, page 1 and page size 10, are the ones in effect, and they are modelled.
- The HTTP server and its routes are left out. So are the delete, resolve and export controllers, the web front end and the environment configuration. Their failure mappings differ from the store and update controllers: the resolve controller answers every failure with a 404 `{message: "Url not found"}` (server/src/app/Http/Controller/ResolveShortUrlController.ts:28-29), and the delete controller validates `{id: z.string()}` and rethrows any error (server/src/app/Http/Controller/DeleteUrlController.ts:17 and 24-26).
- The id of a new row, the clock and the upload uuid are parameters. A fresh id is a precondition of StoreUrl.
- The upload itself is left out: the stream, the bucket client, the content type and the public url built from the key. The key returned and the key uploaded under are the same value, so there is one function for both.
- Only Node's POSIX path functions are modelled, not the Windows ones.
- Logging is left out: the `console.log` and `console.error` calls (server/src/app/Repository/UrlRepository.ts:107, server/src/app/Http/Controller/UpdateUrlController.ts:41, GetUrlController.ts:40, DeleteUrlController.ts:18 and 25) have no effect on any returned value.
- Database failures are left out, such as a lost connection or a constraint violation raised by the database itself. In the store and update controllers they would reach the same `catch` branches, as a 400 carrying the driver's message, and Replies.FailureReply covers that mapping for any thrown value. The get and delete controllers rethrow them (server/src/app/Http/Controller/GetUrlController.ts:39-41, DeleteUrlController.ts:24-26), and the resolve controller answers 404.
- UrlRepository.GetUrl: the order of rows with equal creation times is left open, because the query does not fix it. The contract holds for every order the database may choose.

=== FILE: chars.dfy ===
/** Character classes and string predicates shared by validation, search and storage keys. */
module Chars {

  predicate IsAsciiLetter(c: char) {
    ('a' <= c <= 'z') || ('A' <= c <= 'Z')
  }

  predicate IsAsciiDigit(c: char) {
    '0' <= c <= '9'
  }

  /** The class `[a-zA-Z0-9-_]`: the alphabet of short names and of sanitised file names. */
  predicate IsNameChar(c: char) {
    IsAsciiLetter(c) || IsAsciiDigit(c) || c == '-' || c == '_'
  }

  /** Every character of `s` is in `[a-zA-Z0-9-_]`. */
  predicate AllNameChars(s: string) {
    forall i :: 0 <= i < |s| ==> IsNameChar(s[i])
  }

  /** ECMAScript LineTerminator: the characters a regex `.` does not match. */
  predicate IsLineTerminator(c: char) {
    c == '\n' || c == '\r' || c as int == 0x2028 || c as int == 0x2029
  }

  /** ECMAScript `\s` (WhiteSpace and LineTerminator); also the set `String.prototype.trim` removes. */
  predicate IsJsWhitespace(c: char) {
    var n := c as int;
    || n == 0x09 || n == 0x0B || n == 0x0C || n == 0x20 || n == 0xA0 || n == 0x1680
    || (0x2000 <= n <= 0x200A) || n == 0x202F || n == 0x205F || n == 0x3000 || n == 0xFEFF
    || IsLineTerminator(c)
  }

  /** `s.trim() === ""`: the string is empty or made of whitespace only. */
  predicate IsBlank(s: string) {
    forall i :: 0 <= i < |s| ==> IsJsWhitespace(s[i])
  }

  /** Case folding of a non-unicode `/i` regex for ASCII letters (the only letters in the patterns). */
  function AsciiLower(c: char): (r: char)
    ensures 'A' <= c <= 'Z' ==> 'a' <= r <= 'z'
    ensures !('A' <= c <= 'Z') ==> r == c
  {
    if 'A' <= c <= 'Z' then (c as int + 32) as char else c
  }

  /** `s` starts with `p` when letters are compared case-insensitively. */
  predicate HasPrefixIgnoringCase(s: string, p: string) {
    |p| <= |s| && forall i :: 0 <= i < |p| ==> AsciiLower(s[i]) == AsciiLower(p[i])
  }

  /** `sub` occurs somewhere in `s` as a contiguous substring. */
  predicate Contains(s: string, sub: string)
    decreases |s|
  {
    sub <= s || (s != [] && Contains(s[1..], sub))
  }

  /** `sub` occurs in `s` starting at position `i`. */
  predicate OccursAt(s: string, sub: string, i: int) {
    0 <= i <= |s| - |sub| && s[i..i + |sub|] == sub
  }

  /** Substring search agrees with the positional reading: `sub` occurs at some position of `s`. */
  lemma {:induction false} ContainsIffOccurs(s: string, sub: string)
    ensures Contains(s, sub) <==> exists i :: OccursAt(s, sub, i)
    decreases |s|
  {
    if sub <= s {
      assert OccursAt(s, sub, 0);
    } else if s == [] {
    } else {
      ContainsIffOccurs(s[1..], sub);
      if Contains(s[1..], sub) {
        var i :| OccursAt(s[1..], sub, i);
        assert s[i + 1..i + 1 + |sub|] == s[1..][i..i + |sub|];
        assert OccursAt(s, sub, i + 1);
      }
      if exists i :: OccursAt(s, sub, i) {
        var i :| OccursAt(s, sub, i);
        if i > 0 {
          assert s[1..][i - 1..i - 1 + |sub|] == s[i..i + |sub|];
          assert OccursAt(s[1..], sub, i - 1);
        }
      }
    }
  }

  /** Every string contains the empty string: a `LIKE '%%'` filter lets everything through. */
  lemma {:induction false} ContainsEmpty(s: string)
    ensures Contains(s, "")
  {
  }

  /** A string contains each of its suffixes. */
  lemma ContainsSuffix(a: string, b: string)
    ensures Contains(a + b, b)
  {
    ContainsIffOccurs(a + b, b);
    assert (a + b)[|a|..|a| + |b|] == b;
    assert OccursAt(a + b, b, |a|);
  }
}

=== FILE: get_controller.dfy ===
/** `GET /url`: validate the query, list one page, and assemble the response. */
module GetController {
  import opened Wrappers
  import opened Schema
  import opened UrlRepository
  import opened Validation

  /** The handler's input object. */
  datatype Query = Query(search: Value, page: Value, pageSize: Value)

  /** `search: z.string().optional()`: passed on as given, `undefined` included. */
  function ParseSearch(v: Value): (r: Result<Option<string>, Issue>)
    ensures v.Undefined? ==> r == Success(None)
    ensures v.Str? ==> r == Success(Some(v.s))
    ensures r.Failure? <==> !v.Undefined? && !v.Str?
  {
    match v
    case Undefined => Success(None)
    case Str(s) => Success(Some(s))
    case _ => Failure(TypeIssue("search", "string", v))
  }

  /** `z.number().optional().default(d)`: a missing value becomes `d`. */
  function ParseNumber(path: string, v: Value, default: int): (r: Result<int, Issue>)
    ensures v.Undefined? ==> r == Success(default)
    ensures v.Num? ==> r == Success(v.n)
    ensures r.Failure? <==> !v.Undefined? && !v.Num?
    ensures r.Failure? ==> r.error.path == path
  {
    match v
    case Undefined => Success(default)
    case Num(n) => Success(n)
    case _ => Failure(TypeIssue(path, "number", v))
  }

  function IssuesOf<T>(r: Result<T, Issue>): seq<Issue> {
    if r.Failure? then [r.error] else []
  }

  /** `getUrlSchema.parse`: the validated object always carries a page and a page size. */
  function ParseQuery(q: Query): (r: Result<ListRequest, seq<Issue>>)
    ensures r.Success? <==> ParseSearch(q.search).Success? && ParseNumber("page", q.page, 1).Success?
                            && ParseNumber("pageSize", q.pageSize, 10).Success?
    ensures r.Success? ==> r.value.page.Some? && r.value.pageSize.Some?
    ensures r.Success? && q.page.Undefined? ==> r.value.Page() == 1
    ensures r.Success? && q.pageSize.Undefined? ==> r.value.PageSize() == 10
    ensures r.Success? && q.page.Num? ==> r.value.Page() == q.page.n
    ensures r.Success? && q.pageSize.Num? ==> r.value.PageSize() == q.pageSize.n
    ensures r.Success? ==> r.value.search == (if q.search.Str? then Some(q.search.s) else None)
    ensures r.Failure? ==> r.error != []
  {
    var s := ParseSearch(q.search);
    var p := ParseNumber("page", q.page, 1);
    var z := ParseNumber("pageSize", q.pageSize, 10);
    if s.Success? && p.Success? && z.Success? then
      Success(ListRequest(s.value, Some(p.value), Some(z.value)))
    else
      Failure(IssuesOf(s) + IssuesOf(p) + IssuesOf(z))
  }

  /** The query, once validated, asks for a page the database accepts. */
  predicate PagingAccepted(q: Query) {
    ParseQuery(q).Success? ==> PagingInRange(ParseQuery(q).value)
  }

  /**
   * `GetUrlController.handle`: a validation failure is rethrown as is;
   * otherwise `data` and `total` come from the repository and `page` and
   * `pageSize` from the validated query.
   */
  method Handle(t: Table, q: Query) returns (r: Result<ListPage, seq<Issue>>, ghost listing: seq<Id>)
    requires PagingAccepted(q)
    ensures ParseQuery(q).Failure? ==> r == Failure(ParseQuery(q).error)
    ensures ParseQuery(q).Success? ==>
              var req := ParseQuery(q).value;
              && r.Success?
              && IsListing(t, req.Search(), listing)
              && r.value.data == Rows(t, Window(listing, req.Offset(), req.PageSize()))
              && r.value.total == |r.value.data|
              && r.value.page == req.Page() && r.value.pageSize == req.PageSize()
  {
    var parsed := ParseQuery(q);
    if parsed.Failure? {
      r := Failure(parsed.error);
      listing := [];
      return;
    }
    var req := parsed.value;
    var result;
    result, listing := GetUrl(t, req);
    r := Success(ListPage(result.data, result.total, req.page.GetOr(1), req.pageSize.GetOr(10)));
  }
}

=== FILE: replies.dfy ===
/** What a controller hands back: a success body, or a status with message and error text. */
module Replies {
  import opened Schema

  /** A JavaScript throw: an `Error` with its message, or any other thrown value. */
  datatype Thrown = ErrorThrown(message: string) | NonErrorThrown

  /** A controller's answer: the success body, or the status and body of a refusal. */
  datatype Reply =
    | Done(data: seq<Link>, message: string)
    | Refused(status: nat, message: string, error: string)

  /** The message of every validation refusal. */
  const InvalidData: string := "Dados inválidos fornecidos"

  /** The table after a controller call and the reply it produced. */
  datatype Handled = Handled(table: Table, reply: Reply)

  /**
   * The `catch` branches after validation: an `Error` is a 400 with the
   * controller's `failure` message and the error's own message; any other
   * thrown value is a 500 with the controller's `unknown` text.
   */
  function FailureReply(th: Thrown, failure: string, unknown: string): (r: Reply)
    ensures r.Refused?
    ensures r.status == 400 <==> th.ErrorThrown?
    ensures th.ErrorThrown? ==> r.message == failure && r.error == th.message
    ensures th.NonErrorThrown? ==> r == Refused(500, "Erro interno do servidor", unknown)
  {
    match th
    case ErrorThrown(m) => Refused(400, failure, m)
    case NonErrorThrown => Refused(500, "Erro interno do servidor", unknown)
  }
}

=== FILE: repository.dfy ===
/**
 * The link repository: the seven queries of the URL repository over an
 * immutable `Table`. Each call is atomic; it returns the table after the
 * call together with its value or the error it throws.
 */
module UrlRepository {
  import opened Wrappers
  import opened Chars
  import opened Schema

  /** The two errors the repository throws itself. */
  datatype RepoError = UrlNotFound | NameAlreadyExists {

    /** The `Error.message` each one carries. */
    function Message(): (m: string)
      ensures m != []
      ensures m == "Url not found" <==> UrlNotFound?
      ensures NameAlreadyExists? ==> m == "Name url already exists"
    {
      match this
      case UrlNotFound => "Url not found"
      case NameAlreadyExists => "Name url already exists"
    }
  }

  /** The table after a call, and what the call returned or threw. */
  datatype Step<T> = Step(table: Table, result: Result<T, RepoError>)

  /** What resolving a short name reports: the target and the new access count. */
  datatype Resolution = Resolution(url: string, countAccess: nat)

  /** `checkUrlExists`: a row with primary key `id` is present. */
  function CheckUrlExists(t: Table, id: Id): (r: bool)
    ensures r <==> exists l :: l in t.Values && l.id == id
  {
    assert id in t ==> t[id] in t.Values;
    id in t
  }

  /** `storeUrl`: insert a new row unless the name is already in use. */
  function StoreUrl(t: Table, name: string, url: string, freshId: Id, now: Timestamp): (r: Step<Link>)
    requires freshId !in t
    ensures r.result.Failure? <==> NameTaken(t, name)
    ensures r.result.Failure? ==> r.result.error == NameAlreadyExists && r.table == t
    ensures r.result.Success? ==>
              var l := r.result.value;
              && l.id == freshId && l.name == name && l.url == url
              && l.createdAt == now && l.countAccess == 0
              && r.table.Keys == t.Keys + {freshId}
              && r.table[freshId] == l
              && forall k :: k in t ==> r.table[k] == t[k]
  {
    if NameTaken(t, name) then
      Step(t, Failure(NameAlreadyExists))
    else
      var l := Link(freshId, name, url, now, 0);
      Step(t[freshId := l], Success(l))
  }

  /** A row other than `id` already carries `name`: the `name = ? and id not in (?)` probe. */
  predicate NameTakenByOther(t: Table, id: Id, name: string) {
    exists k :: k in t && k != id && t[k].name == name
  }

  /** `updateUrl`: the not-found check, then the name check, then overwrite `name` and `url`. */
  function UpdateUrl(t: Table, id: Id, name: string, url: string): (r: Step<Link>)
    ensures id !in t ==> r.result == Failure(UrlNotFound)
    ensures id in t ==> (r.result == Failure(NameAlreadyExists) <==> NameTakenByOther(t, id, name))
    ensures r.result.Success? <==> id in t && !NameTakenByOther(t, id, name)
    ensures r.result.Failure? ==> r.table == t
    ensures r.result.Success? ==>
              && id in t
              && r.table.Keys == t.Keys
              && r.result.value == r.table[id]
              && r.table[id].id == id && r.table[id].name == name && r.table[id].url == url
              && r.table[id].createdAt == t[id].createdAt
              && r.table[id].countAccess == t[id].countAccess
              && forall k :: k in t && k != id ==> r.table[k] == t[k]
  {
    if !CheckUrlExists(t, id) then
      Step(t, Failure(UrlNotFound))
    else if NameTakenByOther(t, id, name) then
      Step(t, Failure(NameAlreadyExists))
    else
      var l := t[id].(name := name, url := url);
      Step(t[id := l], Success(l))
  }

  /** `deleteUrl`: the not-found check, then removal of that one row. */
  function DeleteUrl(t: Table, id: Id): (r: Step<bool>)
    ensures r.result.Failure? <==> id !in t
    ensures r.result.Failure? ==> r.result.error == UrlNotFound && r.table == t
    ensures r.result.Success? ==>
              && r.result.value
              && r.table.Keys == t.Keys - {id}
              && forall k :: k in r.table ==> r.table[k] == t[k]
  {
    if !CheckUrlExists(t, id) then
      Step(t, Failure(UrlNotFound))
    else
      Step(t - {id}, Success(true))
  }

  /** `getUrlByShortUrl`: find the row by name, report its url and count plus one, and add one to the stored count. */
  function GetUrlByShortUrl(t: Table, shortUrl: string): (r: Step<Resolution>)
    ensures r.result.Failure? <==> !NameTaken(t, shortUrl)
    ensures r.result.Failure? ==> r.result.error == UrlNotFound && r.table == t
    ensures r.result.Success? ==>
              && r.table.Keys == t.Keys
              && forall k :: k in t ==>
                   if t[k].name == shortUrl then
                     && r.result.value == Resolution(t[k].url, t[k].countAccess + 1)
                     && r.table[k] == t[k].(countAccess := t[k].countAccess + 1)
                   else
                     r.table[k] == t[k]
  {
    match IdByName(t, shortUrl)
    case None => Step(t, Failure(UrlNotFound))
    case Some(k) =>
      var row := t[k];
      Step(t[k := row.(countAccess := row.countAccess + 1)],
           Success(Resolution(row.url, row.countAccess + 1)))
  }

  /** `urlExport`: every row when the query is blank, otherwise the rows whose name contains it. */
  function UrlExport(t: Table, searchQuery: string): (r: map<Id, Link>)
    ensures r.Keys <= t.Keys
    ensures forall k :: k in r ==> r[k] == t[k]
    ensures forall k :: k in t && k !in r ==> !IsBlank(searchQuery) && !Contains(t[k].name, searchQuery)
  {
    map k | k in t && (IsBlank(searchQuery) || Contains(t[k].name, searchQuery)) :: t[k]
  }

  // ---------------------------------------------------------------------
  // Listing (`getUrl`)
  // ---------------------------------------------------------------------

  /** The rows `like '%search%'` selects (plain substring containment). */
  function MatchingIds(t: Table, search: string): (r: set<Id>)
    ensures r <= t.Keys
  {
    set k | k in t && Contains(t[k].name, search)
  }

  predicate Distinct<T(==)>(s: seq<T>) {
    forall i, j :: 0 <= i < j < |s| ==> s[i] != s[j]
  }

  /** `order by created_at desc`: later rows never precede earlier ones. */
  predicate NewestFirst(t: Table, ids: seq<Id>)
    requires forall i :: 0 <= i < |ids| ==> ids[i] in t
  {
    forall i, j :: 0 <= i < j < |ids| ==> t[ids[j]].createdAt <= t[ids[i]].createdAt
  }

  /**
   * An order the database may return the filtered rows in: each matching
   * row exactly once, newest first. Rows with equal timestamps may come in
   * any order, so several listings can exist.
   */
  predicate IsListing(t: Table, search: string, ids: seq<Id>)
    ensures IsListing(t, search, ids) ==> forall i :: 0 <= i < |ids| ==> ids[i] in t
  {
    && (forall i :: 0 <= i < |ids| ==> ids[i] in MatchingIds(t, search))
    && (forall k :: k in MatchingIds(t, search) ==> k in ids)
    && Distinct(ids)
    && NewestFirst(t, ids)
  }

  function Min(a: int, b: int): int {
    if a <= b then a else b
  }

  /** `limit`/`offset` applied to a result sequence. */
  function Window<T>(s: seq<T>, offset: nat, limit: nat): (w: seq<T>)
    ensures |w| == Min(limit, if offset <= |s| then |s| - offset else 0)
    ensures forall i :: 0 <= i < |w| ==> w[i] == s[offset + i]
  {
    var lo := Min(offset, |s|);
    var hi := Min(offset + limit, |s|);
    s[lo..hi]
  }

  /** The rows behind a sequence of ids. */
  function Rows(t: Table, ids: seq<Id>): (rows: seq<Link>)
    requires forall i :: 0 <= i < |ids| ==> ids[i] in t
    ensures |rows| == |ids|
    ensures forall i :: 0 <= i < |ids| ==> rows[i] == t[ids[i]]
  {
    seq(|ids|, i requires 0 <= i < |ids| => t[ids[i]])
  }

  /** The optional arguments of `getUrl`. */
  datatype ListRequest = ListRequest(search: Option<string>, page: Option<int>, pageSize: Option<int>) {
    /** A missing search matches every name. */
    function Search(): (s: string)
      ensures search.Some? ==> s == search.value
      ensures search.None? ==> s == []
    {
      search.GetOr("")
    }

    /** Page 1 unless one is given. */
    function Page(): (p: int)
      ensures page.Some? ==> p == page.value
      ensures page.None? ==> p == 1
    {
      page.GetOr(1)
    }

    /** Ten rows a page unless a size is given. */
    function PageSize(): (z: int)
      ensures pageSize.Some? ==> z == pageSize.value
      ensures pageSize.None? ==> z == 10
    {
      pageSize.GetOr(10)
    }

    /** The rows the pages before this one hold; 0 on the first page. */
    function Offset(): (o: int)
      ensures Page() == 1 ==> o == 0
      ensures Page() >= 1 && PageSize() >= 0 ==> o >= 0
      ensures Page() >= 1 && PageSize() >= 0 ==> o + PageSize() == Page() * PageSize()
    {
      (Page() - 1) * PageSize()
    }
  }

  /** The object `getUrl` resolves to. */
  datatype ListPage = ListPage(data: seq<Link>, total: int, page: int, pageSize: int)

  /** Paging the database accepts: a non-negative limit and offset. */
  predicate PagingInRange(req: ListRequest) {
    req.PageSize() >= 0 && req.Offset() >= 0
  }

  /** `id` is a latest row of `s`. */
  predicate IsLatest(t: Table, s: set<Id>, id: Id)
    requires s <= t.Keys && id in t
  {
    forall k :: k in s ==> t[k].createdAt <= t[id].createdAt
  }

  /** Every non-empty set of rows has a latest one. */
  lemma LatestExists(t: Table, s: set<Id>)
    requires s != {} && s <= t.Keys
    ensures exists m :: m in s && IsLatest(t, s, m)
  {
    var x :| x in s;
    if s == {x} {
      assert IsLatest(t, s, x);
    } else {
      LatestExists(t, s - {x});
      var m :| m in s - {x} && IsLatest(t, s - {x}, m);
      if t[x].createdAt <= t[m].createdAt {
        assert IsLatest(t, s, m);
      } else {
        assert IsLatest(t, s, x);
      }
    }
  }

  /**
   * `order by created_at desc` over the rows `s`: repeatedly take a newest
   * remaining row. Rows with equal timestamps come out in whichever order
   * the choices fall.
   */
  method OrderNewestFirst(t: Table, s: set<Id>) returns (ids: seq<Id>)
    requires s <= t.Keys
    ensures forall i :: 0 <= i < |ids| ==> ids[i] in s
    ensures forall k :: k in s ==> k in ids
    ensures Distinct(ids)
    ensures NewestFirst(t, ids)
  {
    var rest := s;
    ids := [];
    while rest != {}
      invariant rest <= s
      invariant forall i :: 0 <= i < |ids| ==> ids[i] in s && ids[i] !in rest
      invariant forall k :: k in s ==> k in rest || k in ids
      invariant Distinct(ids)
      invariant NewestFirst(t, ids)
      invariant forall i, k :: 0 <= i < |ids| && k in rest ==> t[k].createdAt <= t[ids[i]].createdAt
      decreases rest
    {
      LatestExists(t, rest);
      var m :| m in rest && IsLatest(t, rest, m);
      AppendNewest(t, ids, m);
      ids := ids + [m];
      rest := rest - {m};
    }
  }

  /** Appending a row no newer than any listed row, and not yet listed, keeps the order newest first and free of repeats. */
  lemma AppendNewest(t: Table, ids: seq<Id>, m: Id)
    requires forall i :: 0 <= i < |ids| ==> ids[i] in t
    requires m in t && m !in ids
    requires Distinct(ids) && NewestFirst(t, ids)
    requires forall i :: 0 <= i < |ids| ==> t[m].createdAt <= t[ids[i]].createdAt
    ensures Distinct(ids + [m]) && NewestFirst(t, ids + [m])
  {
    var s := ids + [m];
    forall i, j | 0 <= i < j < |s|
      ensures s[i] != s[j] && t[s[j]].createdAt <= t[s[i]].createdAt
    {
      if j == |ids| {
        assert s[j] == m && s[i] == ids[i];
      } else {
        assert s[i] == ids[i] && s[j] == ids[j];
      }
    }
  }

  /**
   * `getUrl`: filter by name, order newest first, skip `(page-1)*pageSize`
   * rows and keep at most `pageSize`; `total` is the size of that page.
   */
  method GetUrl(t: Table, req: ListRequest) returns (r: ListPage, ghost listing: seq<Id>)
    requires PagingInRange(req)
    ensures IsListing(t, req.Search(), listing)
    ensures r.data == Rows(t, Window(listing, req.Offset(), req.PageSize()))
    ensures r.total == |r.data| <= req.PageSize()
    ensures r.page == req.Page() && r.pageSize == req.PageSize()
    ensures forall i :: 0 <= i < |r.data| ==> r.data[i] in t.Values && Contains(r.data[i].name, req.Search())
    ensures forall i, j :: 0 <= i < j < |r.data| ==> r.data[j].createdAt <= r.data[i].createdAt
  {
    var ids := OrderNewestFirst(t, MatchingIds(t, req.Search()));
    listing := ids;
    var window := Window(ids, req.Offset(), req.PageSize());
    var data := Rows(t, window);
    forall i | 0 <= i < |data|
      ensures data[i] in t.Values
    {
      assert data[i] == t[window[i]];
    }
    r := ListPage(data, |data|, req.Page(), req.PageSize());
  }
}

=== FILE: repository_properties.dfy ===
/** Properties that relate several repository calls to one another. */
module RepositoryProperties {
  import opened Wrappers
  import opened Chars
  import opened Schema
  import opened UrlRepository

  /** Storing a name that is already in use fails, whatever the url. */
  lemma StoreTwiceConflicts(t: Table, name: string, url1: string, url2: string,
                            id1: Id, id2: Id, now1: Timestamp, now2: Timestamp)
    requires id1 !in t
    requires StoreUrl(t, name, url1, id1, now1).result.Success?
    requires id2 !in StoreUrl(t, name, url1, id1, now1).table
    ensures var t1 := StoreUrl(t, name, url1, id1, now1).table;
            StoreUrl(t1, name, url2, id2, now2) == Step(t1, Failure(NameAlreadyExists))
  {
    var t1 := StoreUrl(t, name, url1, id1, now1).table;
    assert t1[id1].name == name;
  }

  /** Deleting the row just stored gives back the table as it was. */
  lemma StoreThenDeleteRestores(t: Table, name: string, url: string, freshId: Id, now: Timestamp)
    requires freshId !in t
    requires StoreUrl(t, name, url, freshId, now).result.Success?
    ensures DeleteUrl(StoreUrl(t, name, url, freshId, now).table, freshId) == Step(t, Success(true))
  {
    var t1 := StoreUrl(t, name, url, freshId, now).table;
    var t2 := DeleteUrl(t1, freshId).table;
    assert t2.Keys == t.Keys;
    assert forall k :: k in t ==> t2[k] == t[k];
    assert t2 == t;
  }

  /** A freshly stored name resolves to its url with count 1. */
  lemma StoreThenResolve(t: Table, name: string, url: string, freshId: Id, now: Timestamp)
    requires freshId !in t
    requires StoreUrl(t, name, url, freshId, now).result.Success?
    ensures GetUrlByShortUrl(StoreUrl(t, name, url, freshId, now).table, name).result
            == Success(Resolution(url, 1))
  {
    var t1 := StoreUrl(t, name, url, freshId, now).table;
    assert t1[freshId].name == name;
  }

  /** Two resolutions in a row report N+1 and then N+2, and the stored count ends at N+2. */
  lemma ResolveTwice(t: Table, k: Id)
    requires k in t
    ensures var n := t[k].countAccess;
            var s1 := GetUrlByShortUrl(t, t[k].name);
            var s2 := GetUrlByShortUrl(s1.table, t[k].name);
            && s1.result == Success(Resolution(t[k].url, n + 1))
            && s2.result == Success(Resolution(t[k].url, n + 2))
            && s2.table[k].countAccess == n + 2
  {
    var s1 := GetUrlByShortUrl(t, t[k].name);
    assert s1.result.Success?;
    assert s1.table[k].name == t[k].name;
  }

  /** Re-using the record's own name is not a conflict. */
  lemma UpdateKeepingOwnName(t: Table, id: Id, url: string)
    requires id in t
    ensures UpdateUrl(t, id, t[id].name, url).result.Success?
  {
    assert !NameTakenByOther(t, id, t[id].name);
  }

  /** Taking another record's name is a conflict, and only the name check fails. */
  lemma UpdateTakingOthersName(t: Table, id: Id, other: Id, url: string)
    requires id in t && other in t && id != other
    ensures UpdateUrl(t, id, t[other].name, url) == Step(t, Failure(NameAlreadyExists))
  {
    assert NameTakenByOther(t, id, t[other].name);
  }

  /** Repeating a successful update changes nothing more. */
  lemma UpdateIdempotent(t: Table, id: Id, name: string, url: string)
    requires UpdateUrl(t, id, name, url).result.Success?
    ensures var t1 := UpdateUrl(t, id, name, url).table;
            UpdateUrl(t1, id, name, url) == Step(t1, Success(t1[id]))
  {
    var t1 := UpdateUrl(t, id, name, url).table;
    var t2 := UpdateUrl(t1, id, name, url).table;
    assert !NameTakenByOther(t1, id, name);
    assert t2.Keys == t1.Keys;
    assert forall k :: k in t1 ==> t2[k] == t1[k];
    assert t2 == t1;
  }

  /** After a delete the id is gone from every listing and the name is free again. */
  lemma DeleteForgetsRow(t: Table, id: Id, search: string, ids: seq<Id>)
    requires id in t
    requires IsListing(DeleteUrl(t, id).table, search, ids)
    ensures id !in ids
    ensures GetUrlByShortUrl(DeleteUrl(t, id).table, t[id].name).result == Failure(UrlNotFound)
  {
  }

  /** A blank export query selects every row. */
  lemma ExportBlankIsEverything(t: Table, q: string)
    requires IsBlank(q)
    ensures UrlExport(t, q) == t
  {
  }

  /** A non-blank export query selects exactly the rows a listing search would. */
  lemma ExportMatchesSearch(t: Table, q: string)
    requires !IsBlank(q)
    ensures UrlExport(t, q).Keys == MatchingIds(t, q)
  {
  }

  /** The calls that change the table. */
  datatype Op =
    | Store(name: string, url: string, freshId: Id, now: Timestamp)
    | Update(id: Id, name: string, url: string)
    | Delete(id: Id)
    | Resolve(shortUrl: string)

  function Apply(t: Table, op: Op): Table
    requires op.Store? ==> op.freshId !in t
  {
    match op
    case Store(n, u, i, now) => StoreUrl(t, n, u, i, now).table
    case Update(i, n, u) => UpdateUrl(t, i, n, u).table
    case Delete(i) => DeleteUrl(t, i).table
    case Resolve(s) => GetUrlByShortUrl(t, s).table
  }

  /**
   * The record lifecycle: a row that survives a call keeps its id and
   * creation time, and its access count grows by at most one, and only
   * through a resolution.
   */
  lemma LifecycleInvariants(t: Table, op: Op)
    requires op.Store? ==> op.freshId !in t
    ensures RowsEvolve(t, Apply(t, op), op.Resolve?)
  {
    match op
    case Store(n, u, i, now) =>
      assert RowsEvolve(t, StoreUrl(t, n, u, i, now).table, false);
    case Update(i, n, u) =>
      assert RowsEvolve(t, UpdateUrl(t, i, n, u).table, false);
    case Delete(i) =>
      assert RowsEvolve(t, DeleteUrl(t, i).table, false);
    case Resolve(s) =>
      assert RowsEvolve(t, GetUrlByShortUrl(t, s).table, true);
  }

  /**
   * Every row present before and after keeps its id and creation time, and
   * its access count grows by at most one, and only when `counted`.
   */
  predicate RowsEvolve(t: Table, t1: Table, counted: bool) {
    forall k :: k in t && k in t1 ==>
      && t1[k].id == t[k].id
      && t1[k].createdAt == t[k].createdAt
      && t[k].countAccess <= t1[k].countAccess <= t[k].countAccess + 1
      && (!counted ==> t1[k].countAccess == t[k].countAccess)
  }

  /** Calls other than a store never add rows. */
  lemma OnlyStoreAddsRows(t: Table, op: Op)
    requires !op.Store?
    ensures Apply(t, op).Keys <= t.Keys
  {
  }

  /** The first `n` pages of size `size`, one after the other. */
  function Pages<T>(s: seq<T>, size: nat, n: nat): seq<T> {
    if n == 0 then [] else Pages(s, size, n - 1) + Window(s, (n - 1) * size, size)
  }

  /** Consecutive pages tile the listing: no row is skipped or shown twice. */
  lemma {:induction false} PagesTile<T>(s: seq<T>, size: nat, n: nat)
    ensures Pages(s, size, n) == s[..Min(n * size, |s|)]
  {
    if n > 0 {
      PagesTile(s, size, n - 1);
      var off := (n - 1) * size;
      assert off + size == n * size;
      NextPage(s, off, size);
    }
  }

  /** The prefix up to `off` followed by the page at `off` is the prefix up to `off + size`. */
  lemma NextPage<T>(s: seq<T>, off: nat, size: nat)
    ensures s[..Min(off, |s|)] + Window(s, off, size) == s[..Min(off + size, |s|)]
  {
    var lo := Min(off, |s|);
    var hi := Min(off + size, |s|);
    assert Window(s, off, size) == s[lo..hi];
    assert s[..lo] + s[lo..hi] == s[..hi];
  }

  /** Enough pages show the whole listing. */
  lemma PagesCoverListing<T>(s: seq<T>, size: nat, n: nat)
    requires n * size >= |s|
    ensures Pages(s, size, n) == s
  {
    PagesTile(s, size, n);
  }

  // ---------------------------------------------------------------------
  // Listings are determined up to ties
  // ---------------------------------------------------------------------

  /** The ids at the first `n` positions of `s`. */
  function Firsts(s: seq<Id>, n: nat): (r: set<Id>)
    requires n <= |s|
    ensures forall j :: 0 <= j < n ==> s[j] in r
    ensures forall k :: k in r ==> exists j :: 0 <= j < n && s[j] == k
  {
    set j | 0 <= j < n :: s[j]
  }

  /** `n` positions hold at most `n` ids, and exactly `n` when no id repeats. */
  lemma {:induction false} FirstsSize(s: seq<Id>, n: nat)
    requires n <= |s|
    ensures |Firsts(s, n)| <= n
    ensures Distinct(s) ==> |Firsts(s, n)| == n
  {
    if n > 0 {
      FirstsSize(s, n - 1);
      assert Firsts(s, n) == Firsts(s, n - 1) + {s[n - 1]};
      if Distinct(s) {
        assert s[n - 1] !in Firsts(s, n - 1);
      }
    }
  }

  /** A subset is no larger than its superset. */
  lemma SubsetSize(a: set<Id>, b: set<Id>)
    requires a <= b
    ensures |a| <= |b|
  {
    assert b == a + (b - a);
  }

  /**
   * If position `i` of `a` is strictly newer than position `i` of `b`, the
   * first `i + 1` ids of `a` all sit among the first `i` ids of `b`.
   */
  lemma NewerPrefixInside(t: Table, s: set<Id>, a: seq<Id>, b: seq<Id>, i: nat)
    requires forall j :: 0 <= j < |a| ==> a[j] in t
    requires forall j :: 0 <= j < |b| ==> b[j] in t
    requires forall j :: 0 <= j < |a| ==> a[j] in s
    requires forall k :: k in s ==> k in b
    requires NewestFirst(t, a) && NewestFirst(t, b)
    requires i < |a| && i < |b| && t[a[i]].createdAt > t[b[i]].createdAt
    ensures Firsts(a, i + 1) <= Firsts(b, i)
  {
    forall k | k in Firsts(a, i + 1)
      ensures k in Firsts(b, i)
    {
      var j :| 0 <= j < i + 1 && a[j] == k;
      var m :| 0 <= m < |b| && b[m] == k;
      assert m < i;
    }
  }

  /** The row at position `i` of one listing is never newer than the row at position `i` of another. */
  lemma NotNewerAt(t: Table, search: string, a: seq<Id>, b: seq<Id>, i: nat)
    requires IsListing(t, search, a) && IsListing(t, search, b)
    requires i < |a| && i < |b|
    ensures t[a[i]].createdAt <= t[b[i]].createdAt
  {
    if t[a[i]].createdAt > t[b[i]].createdAt {
      NewerPrefixInside(t, MatchingIds(t, search), a, b, i);
      FirstsSize(a, i + 1);
      FirstsSize(b, i);
      SubsetSize(Firsts(a, i + 1), Firsts(b, i));
    }
  }

  /**
   * Any two orders the database may return for the same table and search
   * have the same length and the same creation time at every position:
   * they differ only in how rows with equal creation times are arranged.
   */
  lemma ListingsAgree(t: Table, search: string, a: seq<Id>, b: seq<Id>)
    requires IsListing(t, search, a) && IsListing(t, search, b)
    ensures |a| == |b|
    ensures forall i :: 0 <= i < |a| ==> t[a[i]].createdAt == t[b[i]].createdAt
  {
    assert Firsts(a, |a|) == MatchingIds(t, search);
    assert Firsts(b, |b|) == MatchingIds(t, search);
    FirstsSize(a, |a|);
    FirstsSize(b, |b|);
    forall i | 0 <= i < |a|
      ensures t[a[i]].createdAt == t[b[i]].createdAt
    {
      NotNewerAt(t, search, a, b, i);
      NotNewerAt(t, search, b, a, i);
    }
  }
}

=== FILE: schema.dfy ===
/** The `link_shorteners` table: one short-link record per row. */
module Schema {
  import opened Wrappers

  /** The text primary key (a uuidv7 string at insert time). */
  type Id = string

  /** A JavaScript `Date`, as milliseconds since the epoch. */
  type Timestamp = int

  /**
   * One row. `countAccess` is a `nat`: every insert writes 0 and the only
   * update adds 1, so the column's NULL never arises in the model.
   */
  datatype Link = Link(id: Id, name: string, url: string, createdAt: Timestamp, countAccess: nat)

  /** Each row sits under its own id (primary key). */
  predicate KeysAreIds(m: map<Id, Link>) {
    forall k :: k in m ==> m[k].id == k
  }

  /** No two rows share a name (the UNIQUE constraint on `name`). */
  predicate NamesUnique(m: map<Id, Link>) {
    forall a, b :: a in m && b in m && m[a].name == m[b].name ==> a == b
  }

  predicate TableInvariant(m: map<Id, Link>) {
    KeysAreIds(m) && NamesUnique(m)
  }

  /** The table's contents: only maps that satisfy the schema's key constraints exist. */
  type Table = m: map<Id, Link> | TableInvariant(m) witness map[]

  /** Some row carries `name`. */
  predicate NameTaken(t: Table, name: string) {
    exists k :: k in t && t[k].name == name
  }

  /** The id of the row named `name`: `select ... where name = ? limit 1`, which has at most one answer. */
  function IdByName(t: Table, name: string): (r: Option<Id>)
    ensures r.Some? <==> NameTaken(t, name)
    ensures r.Some? ==> r.value in t && t[r.value].name == name
    ensures forall k :: k in t && t[k].name == name ==> r == Some(k)
  {
    if NameTaken(t, name) then
      var k :| k in t && t[k].name == name;
      Some(k)
    else
      None
  }
}

=== FILE: storage_key.dfy ===
/**
 * The object key `uploadFileToStorage` uploads under:
 * `folder/uuid-<sanitised basename><extension>`. The uuid is a parameter;
 * paths follow Node's POSIX `basename` and `extname`.
 */
module StorageKey {
  import opened Wrappers
  import opened Chars

  /** The `z.enum(["images", "downloads"])` folder. */
  datatype Folder = Images | Downloads {
    function Name(): string {
      match this
      case Images => "images"
      case Downloads => "downloads"
    }
  }

  /** Parsing the folder: only the two enum names are accepted. */
  function ParseFolder(s: string): (r: Result<Folder, string>)
    ensures r.Success? <==> s == "images" || s == "downloads"
    ensures r.Success? ==> r.value.Name() == s
  {
    if s == "images" then Success(Images)
    else if s == "downloads" then Success(Downloads)
    else Failure("Invalid enum value. Expected 'images' | 'downloads', received '" + s + "'")
  }

  /** `p` without the slashes at its end. */
  function StripTrailingSlashes(p: string): (r: string)
    ensures r <= p
    ensures r == [] || r[|r| - 1] != '/'
    ensures forall i :: |r| <= i < |p| ==> p[i] == '/'
  {
    if |p| > 0 && p[|p| - 1] == '/' then StripTrailingSlashes(p[..|p| - 1]) else p
  }

  /** The longest slash-free suffix of `p`. */
  function AfterLastSlash(p: string): (r: string)
    ensures |r| <= |p| && r == p[|p| - |r|..]
    ensures '/' !in r
    ensures |r| < |p| ==> p[|p| - |r| - 1] == '/'
  {
    if |p| == 0 || p[|p| - 1] == '/' then [] else AfterLastSlash(p[..|p| - 1]) + [p[|p| - 1]]
  }

  /** Node's `path.posix.basename(p)`: the last component, trailing slashes ignored. */
  function Basename(p: string): (r: string)
    ensures '/' !in r
  {
    AfterLastSlash(StripTrailingSlashes(p))
  }

  /** Index of the last '.' in `c`, or -1 when there is none. */
  function LastDot(c: string): (r: int)
    ensures -1 <= r < |c|
    ensures r >= 0 ==> c[r] == '.' && '.' !in c[r + 1..]
    ensures r == -1 <==> '.' !in c
  {
    if |c| == 0 then -1
    else if c[|c| - 1] == '.' then |c| - 1
    else
      var r := LastDot(c[..|c| - 1]);
      assert c == c[..|c| - 1] + [c[|c| - 1]];
      r
  }

  /**
   * Node's `path.posix.extname(p)`: from the last '.' of the last component
   * to its end; empty when there is no dot, when the component starts with
   * its first character, or when the component is "..".
   */
  function ExtName(p: string): (r: string)
    ensures r == [] || (r[0] == '.' && '.' !in r[1..])
    ensures |r| <= |Basename(p)| && r == Basename(p)[|Basename(p)| - |r|..]
    ensures '/' !in r
    ensures r == [] <==> (forall i :: 0 < i < |Basename(p)| ==> Basename(p)[i] != '.') || IsDotDot(Basename(p))
  {
    ComponentExt(Basename(p))
  }

  /** The extension of one path component `c`. */
  function ComponentExt(c: string): (r: string)
    ensures r == [] || (r[0] == '.' && '.' !in r[1..])
    ensures |r| <= |c| && r == c[|c| - |r|..]
    ensures forall x :: x in r ==> x in c
    ensures r == [] <==> (forall i :: 0 < i < |c| ==> c[i] != '.') || IsDotDot(c)
  {
    var d := LastDot(c);
    if d <= 0 || IsDotDot(c) then []
    else
      SliceTail(c, d);
      c[d..]
  }

  /** Dropping the first element of the suffix from `d` is the suffix from `d + 1`. */
  lemma SliceTail(c: string, d: nat)
    requires d < |c|
    ensures c[d..][1..] == c[d + 1..]
  {
  }

  /** The component "..". */
  predicate IsDotDot(c: string) {
    |c| == 2 && c[0] == '.' && c[1] == '.'
  }

  /** `s.replace(/[^a-zA-Z0-9-_]/g, "")`: drop every character outside the class. */
  function Sanitize(s: string): (r: string)
    ensures AllNameChars(r)
    ensures |r| <= |s|
  {
    if |s| == 0 then []
    else if IsNameChar(s[0]) then [s[0]] + Sanitize(s[1..])
    else Sanitize(s[1..])
  }

  /** The key of `uploadFileToStorage`, once the folder has been validated. */
  function ObjectKey(folder: Folder, uuid: string, filename: string): (r: string)
    ensures |r| == |folder.Name()| + 2 + |uuid| + |Sanitize(Basename(filename))| + |ExtName(filename)|
    ensures folder.Name() + "/" <= r
  {
    folder.Name() + "/" + (uuid + "-" + Sanitize(Basename(filename)) + ExtName(filename))
  }

  /** The key, or the validation message when the folder is not one of the enum names. */
  function UploadKey(folder: string, filename: string, uuid: string): (r: Result<string, string>)
    ensures r.Success? <==> folder == "images" || folder == "downloads"
    ensures r.Success? ==> exists f: Folder :: f.Name() == folder && r.value == ObjectKey(f, uuid, filename)
  {
    match ParseFolder(folder)
    case Success(f) => Success(ObjectKey(f, uuid, filename))
    case Failure(e) => Failure(e)
  }

  // ---------------------------------------------------------------------
  // Sanitising
  // ---------------------------------------------------------------------

  /** Sanitising works piece by piece: it keeps the allowed characters in their order. */
  lemma {:induction false} SanitizeConcat(a: string, b: string)
    ensures Sanitize(a + b) == Sanitize(a) + Sanitize(b)
    decreases |a|
  {
    if |a| == 0 {
      assert a + b == b;
    } else {
      assert (a + b)[0] == a[0];
      assert (a + b)[1..] == a[1..] + b;
      SanitizeConcat(a[1..], b);
    }
  }

  /** A string of allowed characters is left as it is. */
  lemma {:induction false} SanitizeKeepsAllowed(s: string)
    requires AllNameChars(s)
    ensures Sanitize(s) == s
    decreases |s|
  {
    if |s| > 0 {
      SanitizeKeepsAllowed(s[1..]);
      assert s == [s[0]] + s[1..];
    }
  }

  /** Sanitising twice is sanitising once. */
  lemma SanitizeIdempotent(s: string)
    ensures Sanitize(Sanitize(s)) == Sanitize(s)
  {
    SanitizeKeepsAllowed(Sanitize(s));
  }

  /** Each allowed character keeps its number of occurrences; every other character is gone. */
  lemma {:induction false} SanitizeCounts(s: string, c: char)
    ensures multiset(Sanitize(s))[c] == if IsNameChar(c) then multiset(s)[c] else 0
    decreases |s|
  {
    if |s| > 0 {
      SanitizeCounts(s[1..], c);
      assert s == [s[0]] + s[1..];
    }
  }

  // ---------------------------------------------------------------------
  // Keys
  // ---------------------------------------------------------------------

  /** With a slash-free uuid, the object lands directly in the chosen folder, whatever the file name. */
  lemma KeyStaysInFolder(folder: Folder, uuid: string, filename: string)
    requires '/' !in uuid
    ensures var k := ObjectKey(folder, uuid, filename);
            var n := |folder.Name()|;
            && |k| > n
            && k[..n + 1] == folder.Name() + "/"
            && '/' !in k[n + 1..]
  {
    var s := Sanitize(Basename(filename));
    NoDotInNameChars(s);
    SplitAfterPrefix(folder.Name() + "/", uuid + "-" + s + ExtName(filename));
  }

  /** Cutting `a + b` after `a` gives back both parts. */
  lemma SplitAfterPrefix(a: string, b: string)
    ensures (a + b)[..|a|] == a && (a + b)[|a|..] == b
  {
  }

  /** A string of allowed characters has no dot. */
  lemma NoDotInNameChars(s: string)
    requires AllNameChars(s)
    ensures '.' !in s && '/' !in s
  {
    forall i | 0 <= i < |s| ensures s[i] != '.' && s[i] != '/' {
      assert IsNameChar(s[i]);
    }
  }

  /** The last dot of `a + b` lies in `b` when `b` has one, and is the last dot of `a` otherwise. */
  lemma {:induction false} LastDotAppend(a: string, b: string)
    ensures LastDot(a + b) == if '.' in b then |a| + LastDot(b) else LastDot(a)
    decreases |b|
  {
    if |b| == 0 {
      assert a + b == a;
    } else {
      assert (a + b)[..|a + b| - 1] == a + b[..|b| - 1];
      LastDotAppend(a, b[..|b| - 1]);
      if b[|b| - 1] != '.' {
        assert b == b[..|b| - 1] + [b[|b| - 1]];
        assert ('.' in b) == ('.' in b[..|b| - 1]);
      }
    }
  }

  /** With a uuid free of '/' and '.', the stored object keeps the file's extension. */
  lemma KeyKeepsExtension(folder: Folder, uuid: string, filename: string)
    requires '/' !in uuid && '.' !in uuid
    ensures ExtName(ObjectKey(folder, uuid, filename)) == ExtName(filename)
  {
    KeyExtensionOfParts(folder.Name(), uuid, Sanitize(Basename(filename)), ExtName(filename));
  }

  /** A key assembled from a folder, a plain uuid, an allowed stem and an extension has that extension. */
  lemma KeyExtensionOfParts(folder: string, uuid: string, s: string, e: string)
    requires '/' !in uuid && '.' !in uuid && AllNameChars(s)
    requires '/' !in e
    requires e == [] || (e[0] == '.' && '.' !in e[1..])
    ensures ExtName(folder + "/" + (uuid + "-" + s + e)) == e
  {
    NoDotInNameChars(s);
    var stem := uuid + "-" + s;
    assert '.' !in stem && '/' !in stem;
    ExtNameAfterSlash(folder + "/", stem, e);
  }

  /** The extension of `dir + stem + e` is `e` when the stem is non-empty and free of dots and slashes. */
  lemma ExtNameAfterSlash(dir: string, stem: string, e: string)
    requires |dir| > 0 && dir[|dir| - 1] == '/'
    requires |stem| > 0 && '.' !in stem && '/' !in stem
    requires '/' !in e
    requires e == [] || (e[0] == '.' && '.' !in e[1..])
    ensures ExtName(dir + (stem + e)) == e
  {
    var c := stem + e;
    KeyBasename(dir, c);
    LastDotAppend(stem, e);
    assert !IsDotDot(c) by {
      assert c[0] == stem[0];
    }
    if e != [] {
      LastDotOfExtension(e);
      assert c[|stem|..] == e;
    }
  }

  /** An extension's only dot is its first character. */
  lemma LastDotOfExtension(e: string)
    requires e != [] && e[0] == '.' && '.' !in e[1..]
    ensures LastDot(e) == 0
  {
  }

  /** The basename of `prefix + c` is `c` when `c` is a non-empty slash-free string after a slash. */
  lemma KeyBasename(prefix: string, c: string)
    requires |prefix| > 0 && prefix[|prefix| - 1] == '/'
    requires c != [] && '/' !in c
    ensures Basename(prefix + c) == c
  {
    var p := prefix + c;
    assert StripTrailingSlashes(p) == p;
    AfterLastSlashOf(prefix, c);
  }

  /** The slash-free suffix of `prefix + c` is `c` when `prefix` ends with a slash. */
  lemma {:induction false} AfterLastSlashOf(prefix: string, c: string)
    requires |prefix| > 0 && prefix[|prefix| - 1] == '/'
    requires '/' !in c
    ensures AfterLastSlash(prefix + c) == c
    decreases |c|
  {
    if |c| == 0 {
      assert prefix + c == prefix;
    } else {
      assert (prefix + c)[..|prefix + c| - 1] == prefix + c[..|c| - 1];
      AfterLastSlashOf(prefix, c[..|c| - 1]);
      assert c == c[..|c| - 1] + [c[|c| - 1]];
    }
  }

  /** A name without slashes is its own basename. */
  lemma {:induction false} BasenameOfPlainName(p: string)
    requires '/' !in p
    ensures Basename(p) == p
    decreases |p|
  {
    if |p| > 0 {
      var q := p[..|p| - 1];
      assert '/' !in q by {
        forall i | 0 <= i < |q| ensures q[i] != '/' { assert q[i] == p[i]; }
      }
      BasenameOfPlainName(q);
      assert p == q + [p[|p| - 1]];
    }
  }

  /** Sanitising drops a forbidden character between an allowed prefix and the rest. */
  lemma SanitizeDrops(a: string, c: char, b: string)
    requires AllNameChars(a) && !IsNameChar(c)
    ensures Sanitize(a + [c] + b) == a + Sanitize(b)
  {
    SanitizeConcat(a + [c], b);
    SanitizeConcat(a, [c]);
    SanitizeKeepsAllowed(a);
    assert Sanitize([c]) == [] by {
      assert [c][1..] == [];
    }
    assert Sanitize(a + [c]) == a;
  }

  /** Sanitising a timestamp `date:hh:mm.ms.ext` keeps only its digits and letters. */
  lemma SanitizeTimestamp(f: string, date: string, hh: string, mm: string, ms: string, ext: string)
    requires AllNameChars(date) && AllNameChars(hh) && AllNameChars(mm) && AllNameChars(ms) && AllNameChars(ext)
    requires f == date + [':'] + (hh + [':'] + (mm + ['.'] + (ms + ['.'] + ext)))
    ensures Sanitize(f) == date + (hh + (mm + (ms + ext)))
  {
    var t3 := ms + ['.'] + ext;
    SanitizeDrops(ms, '.', ext);
    SanitizeKeepsAllowed(ext);
    var t2 := mm + ['.'] + t3;
    SanitizeDrops(mm, '.', t3);
    var t1 := hh + [':'] + t2;
    SanitizeDrops(hh, ':', t2);
    SanitizeDrops(date, ':', t1);
  }

  /** A slash-free name not starting with '.' followed by an extension has exactly that extension. */
  lemma ExtNameOfPlain(stem: string, e: string)
    requires |stem| > 0 && stem[0] != '.' && '/' !in stem
    requires e != [] && e[0] == '.' && '.' !in e[1..] && '/' !in e
    ensures ExtName(stem + e) == e
  {
    var c := stem + e;
    assert '/' !in c;
    BasenameOfPlainName(c);
    LastDotAppend(stem, e);
    LastDotOfExtension(e);
    assert !IsDotDot(c) by {
      assert c[0] == stem[0];
    }
    assert c[|stem|..] == e;
  }

  /** The ISO timestamp name of the export file, as a stem and the ".csv" extension. */
  lemma TimestampNameSplit(filename: string, dateHour: string, min: string, sec: string, millis: string)
    requires filename == dateHour + [':'] + (min + [':'] + (sec + ['.'] + (millis + ['.'] + "csv")))
    ensures filename == dateHour + [':'] + (min + [':'] + (sec + ['.'] + millis)) + ".csv"
  {
    assert millis + ['.'] + "csv" == millis + ".csv";
  }

  /** The basename, sanitised stem and extension of a timestamp-shaped `.csv` name. */
  lemma TimestampNameParts(filename: string, dateHour: string, min: string, sec: string, millis: string)
    requires AllNameChars(dateHour) && AllNameChars(min) && AllNameChars(sec) && AllNameChars(millis)
    requires filename == dateHour + [':'] + (min + [':'] + (sec + ['.'] + (millis + ['.'] + "csv")))
    ensures Sanitize(Basename(filename)) == dateHour + (min + (sec + (millis + "csv")))
    ensures ExtName(filename) == ".csv"
  {
    NoDotInNameChars(dateHour);
    NoDotInNameChars(min);
    NoDotInNameChars(sec);
    NoDotInNameChars(millis);
    assert '/' !in filename;
    BasenameOfPlainName(filename);
    SanitizeTimestamp(filename, dateHour, min, sec, millis, "csv");
    var stem := dateHour + [':'] + (min + [':'] + (sec + ['.'] + millis));
    TimestampNameSplit(filename, dateHour, min, sec, millis);
    assert stem[0] != '.' by {
      if |dateHour| > 0 {
        assert stem[0] == dateHour[0];
      } else {
        assert stem[0] == ':';
      }
    }
    ExtNameOfPlain(stem, ".csv");
  }

  /**
   * The export file `<ISO timestamp>.csv` (`YYYY-MM-DDTHH:mm:ss.sssZ.csv`):
   * the basename keeps its ".csv", so the colons and dots go, "csv" stays,
   * and ".csv" is appended again, as in
   * `2024-01-01T00:00:00.000Z.csv` to `2024-01-01T000000000Zcsv.csv`.
   */
  lemma TimestampFileKey(uuid: string, filename: string, dateHour: string, min: string, sec: string, millis: string)
    requires AllNameChars(dateHour) && AllNameChars(min) && AllNameChars(sec) && AllNameChars(millis)
    requires filename == dateHour + [':'] + (min + [':'] + (sec + ['.'] + (millis + ['.'] + "csv")))
    ensures ObjectKey(Downloads, uuid, filename)
            == Downloads.Name() + "/" + (uuid + "-" + (dateHour + (min + (sec + (millis + "csv")))) + ".csv")
  {
    TimestampNameParts(filename, dateHour, min, sec, millis);
  }
}

=== FILE: store_controller.dfy ===
/** `POST /url/store`: validate `{url, name}`, store the link, and map the outcome to a reply. */
module StoreController {
  import opened Wrappers
  import opened Chars
  import opened Schema
  import opened UrlRepository
  import opened Validation
  import opened Replies

  /** A body that passed `storeUrlSchema`. */
  datatype StoreRequest = StoreRequest(url: string, name: string)

  /** The schema's fields in declaration order. */
  const StoreFields: seq<string> := ["url", "name"]

  /** `storeUrlSchema.parse`: the `url` issues, then the `name` issues; the body passes when there are none. */
  function ParseStoreRequest(body: map<string, Value>, isUrl: string -> bool): (r: Result<StoreRequest, seq<Issue>>)
    ensures r.Success? <==>
              && Field(body, "url").Str? && isUrl(Field(body, "url").s) && UrlPatternMatches(Field(body, "url").s)
              && Field(body, "name").Str? && ValidName(Field(body, "name").s)
    ensures r.Success? ==> r.value == StoreRequest(Field(body, "url").s, Field(body, "name").s)
    ensures r.Failure? ==> r.error != [] && InFieldOrder(r.error, StoreFields)
    ensures r.Failure? ==> && OnPath(r.error, "url") == UrlIssues(Field(body, "url"), isUrl)
                           && OnPath(r.error, "name") == NameIssues(Field(body, "name"))
  {
    var urlIssues := UrlIssues(Field(body, "url"), isUrl);
    var nameIssues := NameIssues(Field(body, "name"));
    if urlIssues + nameIssues == [] then
      Success(StoreRequest(Field(body, "url").s, Field(body, "name").s))
    else
      IssuesInOrder(urlIssues, nameIssues);
      IssuesByField(urlIssues, nameIssues);
      Failure(urlIssues + nameIssues)
  }

  /** Url issues followed by name issues are in the schema's field order. */
  lemma IssuesInOrder(urlIssues: seq<Issue>, nameIssues: seq<Issue>)
    requires forall i :: 0 <= i < |urlIssues| ==> urlIssues[i].path == "url"
    requires forall i :: 0 <= i < |nameIssues| ==> nameIssues[i].path == "name"
    ensures InFieldOrder(urlIssues + nameIssues, StoreFields)
  {
    OneFieldInOrder(urlIssues, StoreFields, "url");
    OneFieldInOrder(nameIssues, StoreFields, "name");
    InFieldOrderConcat(urlIssues, nameIssues, StoreFields);
  }

  /** Url issues followed by name issues give back each field's issues when selected by path. */
  lemma IssuesByField(urlIssues: seq<Issue>, nameIssues: seq<Issue>)
    requires forall i :: 0 <= i < |urlIssues| ==> urlIssues[i].path == "url"
    requires forall i :: 0 <= i < |nameIssues| ==> nameIssues[i].path == "name"
    ensures OnPath(urlIssues + nameIssues, "url") == urlIssues
    ensures OnPath(urlIssues + nameIssues, "name") == nameIssues
  {
    OnPathConcat(urlIssues, nameIssues, "url");
    OnPathConcat(urlIssues, nameIssues, "name");
    OnPathUniform(urlIssues, "url", true);
    OnPathUniform(nameIssues, "url", false);
    OnPathUniform(urlIssues, "name", false);
    OnPathUniform(nameIssues, "name", true);
  }

  /** `StoreUrlController.handle`. */
  function Handle(t: Table, body: map<string, Value>, isUrl: string -> bool,
                  freshId: Id, now: Timestamp): (r: Handled)
    requires freshId !in t
    ensures var p := ParseStoreRequest(body, isUrl);
            r.reply.Done? <==> p.Success? && !NameTaken(t, p.value.name)
    ensures r.reply.Refused? ==> r.table == t
    ensures var p := ParseStoreRequest(body, isUrl);
            p.Failure? ==> r.reply == Refused(400, InvalidData, RenderIssues(p.error))
    ensures var p := ParseStoreRequest(body, isUrl);
            p.Success? && NameTaken(t, p.value.name) ==>
              r.reply == Refused(400, "Falha ao armazenar URL", "Name url already exists")
    ensures r.reply.Done? ==>
              && r.reply.message == "URL criada com sucesso"
              && |r.reply.data| == 1
              && r.table.Keys == t.Keys + {freshId}
              && r.reply.data[0] == r.table[freshId]
              && r.reply.data[0].name == Field(body, "name").s
              && r.reply.data[0].url == Field(body, "url").s
              && r.reply.data[0].id == freshId
              && r.reply.data[0].createdAt == now
              && r.reply.data[0].countAccess == 0
              && forall k :: k in t ==> r.table[k] == t[k]
  {
    match ParseStoreRequest(body, isUrl)
    case Failure(issues) => Handled(t, Refused(400, InvalidData, RenderIssues(issues)))
    case Success(req) =>
      var step := StoreUrl(t, req.name, req.url, freshId, now);
      match step.result
      case Failure(e) =>
        Handled(t, FailureReply(ErrorThrown(e.Message()), "Falha ao armazenar URL", "Ocorreu um erro inesperado"))
      case Success(link) => Handled(step.table, Done([link], "URL criada com sucesso"))
  }

  /** A valid url with a name of more than 50 allowed characters is refused with the length message only. */
  lemma LongNameRefused(t: Table, body: map<string, Value>, isUrl: string -> bool,
                        freshId: Id, now: Timestamp, u: string, n: string)
    requires freshId !in t
    requires Field(body, "url") == Str(u) && isUrl(u) && UrlPatternMatches(u)
    requires Field(body, "name") == Str(n) && |n| > NameMaxLength && AllNameChars(n)
    ensures Handle(t, body, isUrl, freshId, now)
            == Handled(t, Refused(400, InvalidData, RenderIssue(Issue("name", NameTooLong))))
  {
    var issue := Issue("name", NameTooLong);
    LongNameParse(body, isUrl, u, n);
    assert Handle(t, body, isUrl, freshId, now) == Handled(t, Refused(400, InvalidData, RenderIssues([issue])));
    RenderSingle(issue);
  }

  /** A valid url with an over-long name of allowed characters fails validation on the length alone. */
  lemma LongNameParse(body: map<string, Value>, isUrl: string -> bool, u: string, n: string)
    requires Field(body, "url") == Str(u) && isUrl(u) && UrlPatternMatches(u)
    requires Field(body, "name") == Str(n) && |n| > NameMaxLength && AllNameChars(n)
    ensures ParseStoreRequest(body, isUrl) == Failure([Issue("name", NameTooLong)])
  {
    var issue := Issue("name", NameTooLong);
    assert UrlIssues(Field(body, "url"), isUrl) == [];
    assert NameIssues(Field(body, "name")) == [issue];
    assert [] + [issue] == [issue];
  }

  /** A body without `url` is refused, and the report opens with "url: Required". */
  lemma MissingUrlReported(t: Table, body: map<string, Value>, isUrl: string -> bool,
                           freshId: Id, now: Timestamp)
    requires freshId !in t
    requires "url" !in body
    ensures var r := Handle(t, body, isUrl, freshId, now);
            && r.table == t
            && r.reply.Refused? && r.reply.status == 400 && r.reply.message == InvalidData
            && RenderIssue(Issue("url", "Required")) <= r.reply.error
  {
    var p := ParseStoreRequest(body, isUrl);
    assert UrlIssues(Field(body, "url"), isUrl) == [Issue("url", "Required")];
    assert p.Failure? && p.error[0] == Issue("url", "Required");
    ReportOpensWith(p.error, "url", "Required");
  }

  /** A body without `name` is refused, and the report mentions "name: Required". */
  lemma MissingNameReported(t: Table, body: map<string, Value>, isUrl: string -> bool,
                            freshId: Id, now: Timestamp)
    requires freshId !in t
    requires "name" !in body
    ensures var r := Handle(t, body, isUrl, freshId, now);
            && r.table == t
            && r.reply.Refused? && r.reply.status == 400 && r.reply.message == InvalidData
            && Contains(r.reply.error, RenderIssue(Issue("name", "Required")))
  {
    var urlIssues := UrlIssues(Field(body, "url"), isUrl);
    var issue := Issue("name", "Required");
    assert NameIssues(Field(body, "name")) == [issue];
    var p := ParseStoreRequest(body, isUrl);
    assert p == Failure(urlIssues + [issue]);
    if urlIssues == [] {
      assert urlIssues + [issue] == [issue];
      ContainsSuffix([], RenderIssues([issue]));
    } else {
      RenderIssuesConcat(urlIssues, [issue]);
      ContainsSuffix(RenderIssues(urlIssues) + ", ", RenderIssues([issue]));
    }
  }
}

=== FILE: update_controller.dfy ===
/** `PUT /url/update/:id`: merge the route id into the body, validate, update, and map the outcome. */
module UpdateController {
  import opened Wrappers
  import opened Schema
  import opened UrlRepository
  import opened Validation
  import opened Replies

  /** An object that passed `updateUrlSchema`. */
  datatype UpdateRequest = UpdateRequest(id: string, url: string, name: string)

  /** The schema's fields in declaration order. */
  const UpdateFields: seq<string> := ["id", "url", "name"]

  /** `{id, ...req.body}`: the route id, overridden by an `id` field of the body. */
  function MergeParams(routeId: Value, body: map<string, Value>): (r: map<string, Value>)
    ensures Field(r, "id") == (if "id" in body then body["id"] else routeId)
    ensures forall k :: k != "id" ==> Field(r, k) == Field(body, k)
  {
    map["id" := routeId] + body
  }

  /** The issues of the `id` field: it must be a string, any string. */
  function IdIssues(v: Value): (r: seq<Issue>)
    ensures r == [] <==> v.Str?
    ensures forall i :: 0 <= i < |r| ==> r[i].path == "id"
  {
    if v.Str? then [] else [TypeIssue("id", "string", v)]
  }

  /** `updateUrlSchema.parse`: id, url and name issues in that order; the name and url rules are the store rules. */
  function ParseUpdateRequest(obj: map<string, Value>, isUrl: string -> bool): (r: Result<UpdateRequest, seq<Issue>>)
    ensures r.Success? <==>
              && Field(obj, "id").Str?
              && Field(obj, "url").Str? && isUrl(Field(obj, "url").s) && UrlPatternMatches(Field(obj, "url").s)
              && Field(obj, "name").Str? && ValidName(Field(obj, "name").s)
    ensures r.Success? ==> r.value == UpdateRequest(Field(obj, "id").s, Field(obj, "url").s, Field(obj, "name").s)
    ensures r.Failure? ==> r.error != [] && InFieldOrder(r.error, UpdateFields)
    ensures r.Failure? ==> && OnPath(r.error, "id") == IdIssues(Field(obj, "id"))
                           && OnPath(r.error, "url") == UrlIssues(Field(obj, "url"), isUrl)
                           && OnPath(r.error, "name") == NameIssues(Field(obj, "name"))
    ensures Field(obj, "id") == Undefined ==> r.Failure? && r.error[0] == Issue("id", "Required")
  {
    var idIssues := IdIssues(Field(obj, "id"));
    var urlIssues := UrlIssues(Field(obj, "url"), isUrl);
    var nameIssues := NameIssues(Field(obj, "name"));
    if idIssues + urlIssues + nameIssues == [] then
      Success(UpdateRequest(Field(obj, "id").s, Field(obj, "url").s, Field(obj, "name").s))
    else
      IssuesInOrder(idIssues, urlIssues, nameIssues);
      IssuesByField(idIssues, urlIssues, nameIssues);
      Failure(idIssues + urlIssues + nameIssues)
  }

  /** Id, url and name issues in a row give back each field's issues when selected by path. */
  lemma IssuesByField(idIssues: seq<Issue>, urlIssues: seq<Issue>, nameIssues: seq<Issue>)
    requires forall i :: 0 <= i < |idIssues| ==> idIssues[i].path == "id"
    requires forall i :: 0 <= i < |urlIssues| ==> urlIssues[i].path == "url"
    requires forall i :: 0 <= i < |nameIssues| ==> nameIssues[i].path == "name"
    ensures OnPath(idIssues + urlIssues + nameIssues, "id") == idIssues
    ensures OnPath(idIssues + urlIssues + nameIssues, "url") == urlIssues
    ensures OnPath(idIssues + urlIssues + nameIssues, "name") == nameIssues
  {
    var a := idIssues + urlIssues;
    OnPathConcat(idIssues, urlIssues, "id");
    OnPathConcat(idIssues, urlIssues, "url");
    OnPathConcat(idIssues, urlIssues, "name");
    OnPathConcat(a, nameIssues, "id");
    OnPathConcat(a, nameIssues, "url");
    OnPathConcat(a, nameIssues, "name");
    OnPathUniform(idIssues, "id", true);
    OnPathUniform(idIssues, "url", false);
    OnPathUniform(idIssues, "name", false);
    OnPathUniform(urlIssues, "id", false);
    OnPathUniform(urlIssues, "url", true);
    OnPathUniform(urlIssues, "name", false);
    OnPathUniform(nameIssues, "id", false);
    OnPathUniform(nameIssues, "url", false);
    OnPathUniform(nameIssues, "name", true);
  }

  /** Id issues, then url issues, then name issues are in the schema's field order. */
  lemma IssuesInOrder(idIssues: seq<Issue>, urlIssues: seq<Issue>, nameIssues: seq<Issue>)
    requires forall i :: 0 <= i < |idIssues| ==> idIssues[i].path == "id"
    requires forall i :: 0 <= i < |urlIssues| ==> urlIssues[i].path == "url"
    requires forall i :: 0 <= i < |nameIssues| ==> nameIssues[i].path == "name"
    ensures InFieldOrder(idIssues + urlIssues + nameIssues, UpdateFields)
  {
    OneFieldInOrder(idIssues, UpdateFields, "id");
    OneFieldInOrder(urlIssues, UpdateFields, "url");
    OneFieldInOrder(nameIssues, UpdateFields, "name");
    InFieldOrderConcat(idIssues, urlIssues, UpdateFields);
    InFieldOrderConcat(idIssues + urlIssues, nameIssues, UpdateFields);
  }

  /** `UpdateUrlController.handle`. */
  function Handle(t: Table, routeId: Value, body: map<string, Value>, isUrl: string -> bool): (r: Handled)
    ensures var p := ParseUpdateRequest(MergeParams(routeId, body), isUrl);
            r.reply.Done? <==> p.Success? && p.value.id in t && !NameTakenByOther(t, p.value.id, p.value.name)
    ensures r.reply.Refused? ==> r.table == t
    ensures var p := ParseUpdateRequest(MergeParams(routeId, body), isUrl);
            p.Failure? ==> r.reply == Refused(400, InvalidData, RenderIssues(p.error))
    ensures var p := ParseUpdateRequest(MergeParams(routeId, body), isUrl);
            p.Success? && p.value.id !in t ==>
              r.reply == Refused(400, "Falha ao atualizar URL", "Url not found")
    ensures var p := ParseUpdateRequest(MergeParams(routeId, body), isUrl);
            p.Success? && p.value.id in t && NameTakenByOther(t, p.value.id, p.value.name) ==>
              r.reply == Refused(400, "Falha ao atualizar URL", "Name url already exists")
    ensures var p := ParseUpdateRequest(MergeParams(routeId, body), isUrl);
            r.reply.Done? ==>
              && r.reply.message == "URL atualizada com sucesso"
              && |r.reply.data| == 1
              && p.value.id in r.table
              && r.reply.data[0] == r.table[p.value.id]
              && r.reply.data[0].name == p.value.name
              && r.reply.data[0].url == p.value.url
              && r.reply.data[0].id == p.value.id
              && r.reply.data[0].createdAt == t[p.value.id].createdAt
              && r.reply.data[0].countAccess == t[p.value.id].countAccess
              && r.table.Keys == t.Keys
              && forall k :: k in t && k != p.value.id ==> r.table[k] == t[k]
  {
    match ParseUpdateRequest(MergeParams(routeId, body), isUrl)
    case Failure(issues) => Handled(t, Refused(400, InvalidData, RenderIssues(issues)))
    case Success(req) =>
      var step := UpdateUrl(t, req.id, req.name, req.url);
      match step.result
      case Failure(e) =>
        Handled(t, FailureReply(ErrorThrown(e.Message()), "Falha ao atualizar URL", "Erro desconhecido"))
      case Success(link) => Handled(step.table, Done([link], "URL atualizada com sucesso"))
  }

  /** Without a route id and without an `id` in the body, the reply is a 400 whose report opens with "id: Required". */
  lemma MissingIdIsReported(t: Table, body: map<string, Value>, isUrl: string -> bool)
    requires "id" !in body
    ensures var r := Handle(t, Undefined, body, isUrl);
            && r.table == t
            && r.reply.Refused? && r.reply.status == 400 && r.reply.message == InvalidData
            && RenderIssue(Issue("id", "Required")) <= r.reply.error
  {
    var p := ParseUpdateRequest(MergeParams(Undefined, body), isUrl);
    MissingIdParse(body, isUrl);
    ReportOpensWith(p.error, "id", "Required");
  }

  /** Without any id, validation fails and its first issue is the missing id. */
  lemma MissingIdParse(body: map<string, Value>, isUrl: string -> bool)
    requires "id" !in body
    ensures var p := ParseUpdateRequest(MergeParams(Undefined, body), isUrl);
            p.Failure? && p.error != [] && p.error[0] == Issue("id", "Required")
  {
    assert Field(MergeParams(Undefined, body), "id") == Undefined;
  }

  /** An `id` in the body wins over the route id. */
  lemma BodyIdWins(t: Table, routeId: Value, body: map<string, Value>, isUrl: string -> bool, id: string)
    requires "id" in body && body["id"] == Str(id)
    ensures Handle(t, routeId, body, isUrl) == Handle(t, Str(id), body, isUrl)
  {
    assert MergeParams(routeId, body) == MergeParams(Str(id), body);
  }
}

=== FILE: validation.dfy ===
/**
 * The field rules shared by the store and update request schemas, and the
 * way a failed parse is reported. A schema parse collects every issue of
 * every field, in field order; a string field whose value is not a string
 * gets one type issue and no further checks.
 */
module Validation {
  import opened Wrappers
  import opened Chars

  /** A request field as the schema library receives it. */
  datatype Value = Undefined | Str(s: string) | Num(n: int) | Other(kind: string)

  /** A field of a request object; an absent key reads as `undefined`. */
  function Field(obj: map<string, Value>, key: string): Value {
    if key in obj then obj[key] else Undefined
  }

  /** The type name used in "Expected ..., received ..." messages. */
  function ReceivedType(v: Value): string {
    match v
    case Undefined => "undefined"
    case Str(_) => "string"
    case Num(_) => "number"
    case Other(k) => k
  }

  /** One validation issue: the field's path and the message. */
  datatype Issue = Issue(path: string, message: string)

  /** The issues `messages` raise on field `path`, in order. */
  function At(path: string, messages: seq<string>): (r: seq<Issue>)
    ensures |r| == |messages|
    ensures forall i :: 0 <= i < |r| ==> r[i] == Issue(path, messages[i])
  {
    seq(|messages|, i requires 0 <= i < |messages| => Issue(path, messages[i]))
  }

  /** The issue for a value of the wrong type; a missing value is "Required". */
  function TypeIssue(path: string, expected: string, v: Value): Issue {
    if v.Undefined? then Issue(path, "Required")
    else Issue(path, "Expected " + expected + ", received " + ReceivedType(v))
  }

  // ---------------------------------------------------------------------
  // Short names
  // ---------------------------------------------------------------------

  const NameMaxLength: nat := 50

  /** The documented rule: 1 to 50 characters from `[A-Za-z0-9_-]`. */
  predicate ValidName(n: string)
    ensures ValidName(n) <==> NameRegexMatches(n) && |n| <= NameMaxLength
  {
    1 <= |n| <= NameMaxLength && AllNameChars(n)
  }

  /** `/^[a-zA-Z0-9-_]+$/`: one or more characters of the class and nothing else. */
  predicate NameRegexMatches(n: string)
    ensures NameRegexMatches(n) ==> n != [] && AllNameChars(n)
    ensures !NameRegexMatches(n) ==> n == [] || exists i :: 0 <= i < |n| && !IsNameChar(n[i])
  {
    |n| >= 1 && AllNameChars(n)
  }

  const NameRequired: string := "Name is required"
  const NameTooLong: string := "Name must be less than 50 characters"
  const NameBadChars: string := "Name can only contain letters, numbers, hyphens and underscores"

  /** The messages of `.min(1)`, `.max(50)` and `.regex(...)`, each check run in turn. */
  function NameMessages(n: string): (r: seq<string>)
    ensures r == [] <==> ValidName(n)
    ensures |n| == 0 ==> r == [NameRequired, NameBadChars]
    ensures |n| > NameMaxLength && AllNameChars(n) ==> r == [NameTooLong]
    ensures 1 <= |n| <= NameMaxLength && !AllNameChars(n) ==> r == [NameBadChars]
    ensures |n| > NameMaxLength && !AllNameChars(n) ==> r == [NameTooLong, NameBadChars]
  {
    (if |n| < 1 then [NameRequired] else [])
    + (if |n| > NameMaxLength then [NameTooLong] else [])
    + (if !NameRegexMatches(n) then [NameBadChars] else [])
  }

  /** The issues of the `name` field. */
  function NameIssues(v: Value): (r: seq<Issue>)
    ensures r == [] <==> v.Str? && ValidName(v.s)
    ensures forall i :: 0 <= i < |r| ==> r[i].path == "name"
  {
    if v.Str? then At("name", NameMessages(v.s)) else [TypeIssue("name", "string", v)]
  }

  /** Fifty allowed characters pass; fifty-one fail on length alone. */
  lemma NameLengthBoundary(n: string, c: char)
    requires IsNameChar(c) && AllNameChars(n)
    ensures |n| == 50 ==> ValidName(n)
    ensures |n| == 51 ==> !ValidName(n) && NameMessages(n) == [NameTooLong]
    ensures |n| == 0 ==> !ValidName(n) && |NameMessages(n)| == 2
  {
  }

  // ---------------------------------------------------------------------
  // Target urls
  // ---------------------------------------------------------------------

  /** The length of the `https?://` prefix `u` opens with (any letter case), or 0 if none. */
  function SchemeLength(u: string): (p: nat)
    ensures p == 0 || p == 7 || p == 8
    ensures p > 0 ==> p <= |u| && HasPrefixIgnoringCase(u, if p == 8 then "https://" else "http://")
    ensures p == 0 <==> !HasPrefixIgnoringCase(u, "http://") && !HasPrefixIgnoringCase(u, "https://")
  {
    if HasPrefixIgnoringCase(u, "https://") then 8
    else if HasPrefixIgnoringCase(u, "http://") then 7
    else 0
  }

  /** The characters `[^\s$.?#]` refuses right after the scheme. */
  predicate IsHostStartExcluded(c: char) {
    IsJsWhitespace(c) || c == '$' || c == '.' || c == '?' || c == '#'
  }

  /**
   * `/^(https?:\/\/)[^\s$.?#].[^\s]*$/i`: the scheme, one character that is
   * not excluded, one character that is not a line terminator (the regex
   * `.`), and then no whitespace up to the end.
   */
  predicate UrlPatternMatches(u: string)
    ensures UrlPatternMatches(u) ==> HasPrefixIgnoringCase(u, "http://") || HasPrefixIgnoringCase(u, "https://")
  {
    var p := SchemeLength(u);
    && p > 0
    && |u| >= p + 2
    && !IsHostStartExcluded(u[p])
    && !IsLineTerminator(u[p + 1])
    && forall i :: p + 2 <= i < |u| ==> !IsJsWhitespace(u[i])
  }

  /** The pattern accepts only http/https urls with at least two characters after the scheme. */
  lemma UrlPatternShape(u: string)
    requires UrlPatternMatches(u)
    ensures HasPrefixIgnoringCase(u, "http://") || HasPrefixIgnoringCase(u, "https://")
    ensures SchemeLength(u) > 0 && |u| >= SchemeLength(u) + 2
    ensures u[6] == '/'
  {
  }

  /** A scan of `u` from left to right, as a regex engine runs the pattern. */
  method MatchUrlPattern(u: string) returns (b: bool)
    ensures b <==> UrlPatternMatches(u)
  {
    var p := SchemeLength(u);
    if p == 0 || |u| < p + 2 || IsHostStartExcluded(u[p]) || IsLineTerminator(u[p + 1]) {
      return false;
    }
    var i := p + 2;
    while i < |u|
      invariant p + 2 <= i <= |u|
      invariant forall j :: p + 2 <= j < i ==> !IsJsWhitespace(u[j])
    {
      if IsJsWhitespace(u[i]) {
        return false;
      }
      i := i + 1;
    }
    return true;
  }

  const UrlRequired: string := "URL is required"
  const UrlInvalid: string := "Invalid URL format"

  /**
   * The messages of `.url()`, `.min(1)` and the pattern refinement, in that
   * order. `isUrl` is the library's own url parser, which is not modelled.
   */
  function UrlMessages(u: string, isUrl: bool): (r: seq<string>)
    ensures r == [] <==> isUrl && UrlPatternMatches(u)
    ensures u == "" ==> |r| >= 2 && r[|r| - 2] == UrlRequired
    ensures u != "" ==> |r| <= 2 && forall m :: m in r ==> m == UrlInvalid
    ensures u != "" && isUrl && !UrlPatternMatches(u) ==> r == [UrlInvalid]
  {
    (if !isUrl then [UrlInvalid] else [])
    + (if |u| < 1 then [UrlRequired] else [])
    + (if !UrlPatternMatches(u) then [UrlInvalid] else [])
  }

  /** The issues of the `url` field. */
  function UrlIssues(v: Value, isUrl: string -> bool): (r: seq<Issue>)
    ensures r == [] <==> v.Str? && isUrl(v.s) && UrlPatternMatches(v.s)
    ensures forall i :: 0 <= i < |r| ==> r[i].path == "url"
  {
    if v.Str? then At("url", UrlMessages(v.s, isUrl(v.s))) else [TypeIssue("url", "string", v)]
  }

  // ---------------------------------------------------------------------
  // Reporting
  // ---------------------------------------------------------------------

  /** Position of `p` among the schema's fields, in declaration order. */
  function PathRank(paths: seq<string>, p: string): (r: nat)
    ensures r <= |paths|
    ensures r < |paths| ==> paths[r] == p
    ensures p in paths ==> r < |paths|
  {
    if |paths| == 0 then 0
    else if paths[0] == p then 0
    else 1 + PathRank(paths[1..], p)
  }

  /** Every issue is on one of `paths`, and issues come in the fields' declaration order. */
  predicate InFieldOrder(issues: seq<Issue>, paths: seq<string>) {
    && (forall i :: 0 <= i < |issues| ==> issues[i].path in paths)
    && (forall i, j :: 0 <= i < j < |issues| ==>
          PathRank(paths, issues[i].path) <= PathRank(paths, issues[j].path))
  }

  /** Issues of a single field are in field order. */
  lemma OneFieldInOrder(issues: seq<Issue>, paths: seq<string>, p: string)
    requires p in paths
    requires forall i :: 0 <= i < |issues| ==> issues[i].path == p
    ensures InFieldOrder(issues, paths)
  {
  }

  /** Issues of earlier fields followed by issues of later fields are in field order. */
  lemma InFieldOrderConcat(a: seq<Issue>, b: seq<Issue>, paths: seq<string>)
    requires InFieldOrder(a, paths) && InFieldOrder(b, paths)
    requires forall i, j :: 0 <= i < |a| && 0 <= j < |b| ==>
               PathRank(paths, a[i].path) <= PathRank(paths, b[j].path)
    ensures InFieldOrder(a + b, paths)
  {
    var c := a + b;
    forall i, j | 0 <= i < j < |c|
      ensures PathRank(paths, c[i].path) <= PathRank(paths, c[j].path)
    {
      if j < |a| {
      } else if i >= |a| {
        assert c[i] == b[i - |a|] && c[j] == b[j - |a|];
      } else {
        assert c[i] == a[i] && c[j] == b[j - |a|];
      }
    }
  }

  /** The issues raised on field `p`, in the order they were raised. */
  function OnPath(issues: seq<Issue>, p: string): (r: seq<Issue>)
    ensures |r| <= |issues|
    ensures forall i :: 0 <= i < |r| ==> r[i].path == p && r[i] in issues
    ensures forall i :: 0 <= i < |issues| && issues[i].path == p ==> issues[i] in r
  {
    if |issues| == 0 then []
    else (if issues[0].path == p then [issues[0]] else []) + OnPath(issues[1..], p)
  }

  /** Selecting one field's issues distributes over concatenation. */
  lemma {:induction false} OnPathConcat(a: seq<Issue>, b: seq<Issue>, p: string)
    ensures OnPath(a + b, p) == OnPath(a, p) + OnPath(b, p)
  {
    if a != [] {
      assert (a + b)[1..] == a[1..] + b;
      OnPathConcat(a[1..], b, p);
    } else {
      assert a + b == b;
    }
  }

  /** Issues all on field `p` are selected whole; issues all on other fields not at all. */
  lemma {:induction false} OnPathUniform(a: seq<Issue>, p: string, on: bool)
    requires forall i :: 0 <= i < |a| ==> (a[i].path == p) == on
    ensures OnPath(a, p) == if on then a else []
  {
    if a != [] {
      OnPathUniform(a[1..], p, on);
    }
  }

  /** `${path}: ${message}`. */
  function RenderIssue(i: Issue): string {
    i.path + ": " + i.message
  }

  /** The rendered issues joined by ", ". */
  function RenderIssues(issues: seq<Issue>): (r: string)
    ensures r == [] <==> issues == []
    ensures issues != [] ==> RenderIssue(issues[0]) <= r
  {
    if |issues| == 0 then ""
    else if |issues| == 1 then RenderIssue(issues[0])
    else RenderIssue(issues[0]) + ", " + RenderIssues(issues[1..])
  }

  /** Joining is associative: the report of two issue lists is their reports joined by ", ". */
  lemma {:induction false} RenderIssuesConcat(a: seq<Issue>, b: seq<Issue>)
    requires a != [] && b != []
    ensures RenderIssues(a + b) == RenderIssues(a) + ", " + RenderIssues(b)
  {
    if |a| == 1 {
      assert (a + b)[1..] == b;
    } else {
      RenderIssuesConcat(a[1..], b);
      assert (a + b)[1..] == a[1..] + b;
    }
  }

  /** A report opens with its first issue. */
  lemma RenderStartsWithFirst(issues: seq<Issue>)
    requires issues != []
    ensures RenderIssue(issues[0]) <= RenderIssues(issues)
  {
  }

  /** A report whose first issue is `path`/`message` opens with `path: message`. */
  lemma ReportOpensWith(issues: seq<Issue>, path: string, message: string)
    requires issues != [] && issues[0] == Issue(path, message)
    ensures path + ": " + message <= RenderIssues(issues)
  {
    RenderStartsWithFirst(issues);
  }

  /** A report of one issue is `path: message`. */
  lemma RenderSingle(i: Issue)
    ensures RenderIssues([i]) == i.path + ": " + i.message
  {
  }
}

=== FILE: wrappers.dfy ===
/** Failure-compatible wrappers used by every module of the model. */
module Wrappers {

  /** An optional value: the model's `undefined`/`null`. */
  datatype Option<+T> = None | Some(value: T) {

    /** The wrapped value, or `default` when absent (JavaScript's `??`). */
    function GetOr(default: T): T {
      match this
      case Some(v) => v
      case None => default
    }
  }

  /** Either a value or the error an operation threw. */
  datatype Result<+T, +E> = Success(value: T) | Failure(error: E)
}
